=== FILE: README.md ===
# dcf77-faker, modelled in Dafny

dcf77-faker is firmware for a SAM L21 microcontroller. It imitates a DCF77
time-signal transmitter: it holds a time code, encodes it once a minute into
the 59-bit DCF77 frame, and sends one bit per second as the duty cycle of a
77.5 kHz PWM carrier. It also shows the time on an HD44780 character display
attached through a PCF8574 I2C port expander.

This project models the firmware's core as pure Dafny functions and proves
properties of them:

- `bits.dfy`, module `Bits`: the machine integer types and bit strings. The
  `u64` frame is a 64-element `seq<bool>`, lowest bit first. The module also
  holds the population count, the parity and the number value of a bit string.
- `wrappers.dfy`, module `Wrappers`: `Option` and `Outcome` (Rust's `Result<(), E>`).
- `init.dfy`, module `Init`: the core clock speed.
- `dcf77.dfy`, module `Dcf77`: the time code `Dcf77Data`, its start value,
  `increment_minute` and `to_bits`. It also has a receiver's `Decode`, which
  gives the frame encoding a partner: the two are proved inverse on their
  domains.
- `scheduler.dfy`, module `Scheduler`: the RTC interrupt handler as a step
  function over the shared statics. It comes with a trace of the duty cycles
  the handler programs, and the once-a-minute re-encoding.
- `foreground.dfy`, module `Foreground`: the main loop. It clears the update
  flag and renders `DD.MM.YY HH:MM:SS`. The module also covers the display
  traffic at start-up and at every redraw. A parser for the rendered line
  serves as its partner.
- `i2c_controller.dfy`, module `I2cController`: the baud divisor, the status
  check after each byte, and `send`. `Send` is proved equal to a loop-free
  reference description.
- `i2c_display.dfy`, module `I2cDisplay`: the display driver as runs of
  port-expander bytes, and a model of what the display controller latches
  from them (one nibble at every falling edge of E). Every command exists
  twice: as written, where `Result::or` in `transmit_byte` can turn a failed
  send into `Ok`, and corrected (see "## Findings"). The main loop uses the
  commands as written.
- `calibration.dfy`, module `Calibration`: the seven fields of the factory
  calibration word.

Hardware is replaced by parameters:

- The I2C status register seen by the k-th status check of a transfer is
  `hw(k)`.
- The result of the k-th single-byte `send` the display driver makes is
  `bus(k)`.
- The calibration word is an argument.
- Delays do nothing.
- The PWM peripheral is reduced to the duty-cycle value the handler
  programs on it.

Two details of the I2C error reporting:

- A `NotAcknowledged` error carries the byte and an index, and the index
  is `usize::MAX` for the address byte.
- The acknowledgement test reports a clear RXNACK bit as `NotAcknowledged`.

## Model

| member | source | states |
|---|---|---|
| Dcf77.New | code/dcf77faker/src/dcf77.rs:102-122 | the start stamp is a valid record: 10:40 on 10.04.90, a Tuesday, CEST, with no warning bits and no flags other than CEST |
| Dcf77.IncrementMinute | code/dcf77faker/src/dcf77.rs:124-151 | only the minute and hour digits change; the date, the weekday and every flag are kept |
| Dcf77.IncrementMinuteAdvances | code/dcf77faker/src/dcf77.rs:124-151 | on a valid time one increment moves the minute of the day on by one, wrapping 23:59 to 00:00, and keeps the time valid (hour digits never reach 24) |
| Dcf77.IncrementWithinHour | code/dcf77faker/src/dcf77.rs:125-134 | below minute 59 the hour is kept and the minute goes up by one |
| Dcf77.IncrementToNextHour | code/dcf77faker/src/dcf77.rs:136-148 | at minute 59 before hour 23 the hour goes up by one and the minute becomes 0 |
| Dcf77.IncrementAtMidnight | code/dcf77faker/src/dcf77.rs:136-142 | at 23:59 both the hour and the minute become 0 |
| Dcf77.IncrementMinuteStaysValid | code/dcf77faker/src/dcf77.rs:124-151 | one increment keeps every minute and hour digit of a valid time in range |
| Dcf77.IncrementMinutesKeepsDate | code/dcf77faker/src/dcf77.rs:139-150 | any number of increments leaves the date and the flags alone |
| Dcf77.IncrementMinutesAdvances | code/dcf77faker/src/dcf77.rs:124-151 | n increments advance a valid time by n minutes modulo 1440 |
| Dcf77.WholeDaysReturn | code/dcf77faker/src/dcf77.rs:124-151 | a multiple of 1440 increments returns a valid record to itself |
| Dcf77.MinuteOfDayDeterminesTime | code/dcf77faker/src/dcf77.rs:124-151 | within valid times the minute of the day fixes all four time digits, so the minute-of-day statements fix the increment completely |
| Dcf77.WithParity | code/dcf77faker/src/dcf77.rs:190-223 | a group followed by its parity bit keeps the group and has an even number of set bits |
| Dcf77.FrameGroups | code/dcf77faker/src/dcf77.rs:153-360 | the frame is the head (bits 0..20), the minute, hour and date groups each with their parity bit (21..28, 29..35, 36..58), and five zero bits |
| Dcf77.FrameMarkers | code/dcf77faker/src/dcf77.rs:156-187 | bit 0 is 0 and bit 20 is 1; nothing above bit 58 is set, so the value is below 2^59 |
| Dcf77.FrameFlags | code/dcf77faker/src/dcf77.rs:161-184 | bits 15..19 carry abnormal operation, summer announcement, CEST, CET and leap-second announcement |
| Dcf77.FrameCivilWarning | code/dcf77faker/src/dcf77.rs:158-159 | bits 1..14 hold the civil warning field modulo 2^14 |
| Dcf77.CivilWarningLow14Bits | code/dcf77faker/src/dcf77.rs:159 | the frame does not depend on the civil warning field's two top bits |
| Dcf77.FrameParity | code/dcf77faker/src/dcf77.rs:189-357 | the minute group with bit 28, the hour group with bit 35 and the date group with bit 58 each have even parity |
| Dcf77.Decode | code/dcf77faker/src/dcf77.rs:153-360 | a receiver that accepts only frames with correct markers and parity, reading each field from its bit range, gives a record whose fields fit those ranges |
| Dcf77.DecodeToBits | code/dcf77faker/src/dcf77.rs:153-360 | a record whose fields fit their bit ranges is read back unchanged from its frame |
| Dcf77.ToBitsDecode | code/dcf77faker/src/dcf77.rs:153-360 | every accepted frame with bits 59..63 clear is exactly the frame of the record it decodes to |
| Dcf77.NewFrame | code/dcf77faker/src/dcf77.rs:102-122 | the start stamp's frame, group by group: only CEST and the time marker in the head, minute 40, hour 10 and the date 10.04.90 (Tuesday), each with its parity bit |
| Scheduler.Initial | code/dcf77faker/src/main.rs:31-33 | the statics start with second 59, the start stamp, the flag clear, and (from the handler's own statics at main.rs lines 143-144) the sub-tick counter at 31 and an all-zero frame |
| Scheduler.SecondBoundary | code/dcf77faker/src/main.rs:154-185 | a second boundary always programs a duty cycle and sets the update flag; the second goes on by one and wraps 60 to 0 |
| Scheduler.BoundaryEffect | code/dcf77faker/src/main.rs:154-182 | starting second 59 programs duty 0, increments the time and stores its fresh frame; any other second programs the long duty for a 1 bit and the short duty for a 0 bit, and shifts the frame right by one |
| Scheduler.RtcTick | code/dcf77faker/src/main.rs:140-186 | the counter advances modulo 32; a boundary happens exactly when it reaches 0; between boundaries nothing but the counter changes |
| Scheduler.InitialInv | code/dcf77faker/src/main.rs:31-33 | the start state (with COUNTER at 31, main.rs line 143) satisfies the handler's invariant: counter below 32, second below 60 and a time record of valid digits |
| Scheduler.TickPreservesInv | code/dcf77faker/src/main.rs:149-186 | every call of the handler keeps the counter below 32, the second below 60 and the time record valid, the minute increment included |
| Scheduler.PwmCycles | code/dcf77faker/src/main.rs:176-180 | the carrier period is 400 core cycles; a 1 bit is sent with duty 200, half the period, and a 0 bit with duty 9, a 44th of it truncated |
| Scheduler.QuietRun | code/dcf77faker/src/main.rs:149-152 | calls that do not bring the counter round to 0 only count and program nothing |
| Scheduler.CounterAt31IsBoundary | code/dcf77faker/src/main.rs:143-152 | a call that finds the counter at 31, as the statics start, is a boundary |
| Scheduler.OneBoundaryPer32Calls | code/dcf77faker/src/main.rs:140-186 | any 32 consecutive calls (one second at 32 calls per second) contain exactly one boundary, at the call that wraps the counter, and end in the state that boundary produces |
| Scheduler.CallsMakeSeconds | code/dcf77faker/src/main.rs:140-186 | 32 * n calls of the handler end in the state n second boundaries end in, and the k-th block of 32 calls programs boundary k's duty cycle at call 31 - counter and nothing at the other 31 |
| Scheduler.SecondsSendFrameBits | code/dcf77faker/src/main.rs:169-182 | until second 59, boundary k sends bit k of the frame held at the start, and the time record is untouched |
| Scheduler.FrameThenReencode | code/dcf77faker/src/main.rs:155-182 | from second 59, the next 59 boundaries send bits 0..58 of the frame in order, and the 60th switches the modulation off and loads the frame of the incremented time |
| Scheduler.MinuteOfBroadcast | code/dcf77faker/src/main.rs:160-182 | the boundary that starts second 59 loads the incremented time's frame, and the seconds after it send that frame bit by bit |
| Scheduler.StartUpSendsZeros | code/dcf77faker/src/main.rs:31-33 | after start-up the first 59 seconds send 0 bits, because the frame starts empty (MINUTE is 0, main.rs line 144), and the 60th boundary loads 10:41 |
| Foreground.Digit | code/dcf77faker/src/main.rs:121-132 | a digit below 10 becomes its ASCII character |
| Foreground.Render | code/dcf77faker/src/main.rs:119-132 | the line has 17 characters and keeps the separators of `xx.xx.xx xx:xx:xx`; the month tens is '1' or '0'; the seconds are the tens and ones of the second |
| Foreground.RenderDigits | code/dcf77faker/src/main.rs:119-132 | for a valid record and a second below 60 every digit position holds an ASCII digit |
| Foreground.ParseRender | code/dcf77faker/src/main.rs:119-132 | the rendered line reads back as the record's day, month, year, hour and minute and the second |
| Foreground.Poll | code/dcf77faker/src/main.rs:112-132 | a pass of the loop clears the flag; it produces a line exactly when the flag was set, and the line is the rendering of the current second and time |
| Foreground.BoundaryTriggersRedraw | code/dcf77faker/src/main.rs:112-116 | after a handler call that processed a boundary the loop redraws the new second; after a quiet call with the flag clear it does not |
| Foreground.StartUpWhenAllSendsPass | code/dcf77faker/src/main.rs:97-100 | when every send succeeds, start-up sends the set-up sequence, the cursor-home command and "DCF77 Faker" in full |
| Foreground.ShowTimeDelivers | code/dcf77faker/src/main.rs:134-135 | when every send succeeds, the display controller receives the command that moves the cursor to position 20, then the line's bytes as data |
| Foreground.RedrawShowsBroadcastTime | code/dcf77faker/src/main.rs:111-135 | when every send succeeds, the redraw after a boundary delivers to the display a line that reads back as the current date, time and second |
| I2cController.BaudDivisor | code/dcf77faker/src/i2c_controller.rs:23-35 | the divisor exists only for a non-zero bus speed; when it fits a byte it is the largest BAUD with 10 + 2 * BAUD + f_core * 13 ns <= f_core / f_SCL, all divisions truncating |
| I2cController.BoardBaudDivisor | code/dcf77faker/src/i2c_controller.rs:14-35 | on the board the divisor is 150 and nothing overflows; the formula without the rise-time term gives exactly 100 kHz, and with the 13 ns rise time the SCL frequency lies between 99.8 kHz and 100 kHz |
| I2cController.CheckBusStatus | code/dcf77faker/src/i2c_controller.rs:129-168 | a bus error wins over lost arbitration, which wins over the acknowledgement test; each error clears its flags, and the result is Pass exactly when no flag reports an error |
| I2cController.AddressByte | code/dcf77faker/src/i2c_controller.rs:179 | a 7-bit address is shifted up over a 0 R/W bit |
| I2cController.SendExpected | code/dcf77faker/src/i2c_controller.rs:171-211 | for a valid address the transfer equals the loop-free description: the phases up to the first faulty status check write their bytes, and that phase clears its flags and ends the transfer with its error |
| I2cController.WriteFromExpected | code/dcf77faker/src/i2c_controller.rs:192-210 | the data loop from byte i, followed by STOP, matches the description from phase i + 1 |
| I2cController.InvalidAddressTouchesNothing | code/dcf77faker/src/i2c_controller.rs:172-174 | an address with the top bit set is refused with InvalidAddress before any register is touched |
| I2cController.SendSucceeds | code/dcf77faker/src/i2c_controller.rs:171-211 | a transfer succeeds exactly when the address is valid and every status check passes; it then writes the address byte, each data byte in order and STOP, and nothing else |
| I2cController.SendStopsAtFirstFault | code/dcf77faker/src/i2c_controller.rs:171-211 | a transfer whose first faulty check is phase j performs the writes of phases 0..j plus phase j's flag clearing, and reports phase j's error |
| I2cController.FirstFaultIsLeast | code/dcf77faker/src/i2c_controller.rs:189-210 | the phase where the transfer stops is the least phase with a faulty status |
| I2cController.NackLocators | code/dcf77faker/src/i2c_controller.rs:189-210 | an unacknowledged address reports the shifted address byte with index usize::MAX; a data byte reports itself and its position; STOP reports byte 0x00 and the number of data bytes |
| I2cDisplay.FirstFailurePassIff | code/dcf77faker/src/i2c_display.rs:55-69 | a run of sends reports no failure exactly when every send in it succeeded |
| I2cDisplay.SendFrames | code/dcf77faker/src/i2c_display.rs:54-72 | every frame goes to the given address; the frames sent are a prefix of those asked for, all of them on success; on failure the last one sent is the one that failed, and its error is returned |
| I2cDisplay.NibbleFramesShape | code/dcf77faker/src/i2c_display.rs:49-66 | a nibble is three expander states that differ only in E, low, high, low; each carries the nibble on pins 7..4, the backlight bit, R/W low and the RS bit |
| I2cDisplay.TransmitNibble | code/dcf77faker/src/i2c_display.rs:41-73 | the three frames go out in order to the display's address and sending stops at the first that fails, whose error is returned; on success all three were sent |
| I2cDisplay.TransmitByte | code/dcf77faker/src/i2c_display.rs:76-86 | corrected: the result is the first failure among all the sends of both nibbles; on success the upper nibble's frames precede the lower's |
| I2cDisplay.TransmitByteSendsBothNibbles | code/dcf77faker/src/i2c_display.rs:79-83 | the lower nibble is attempted whatever became of the upper one |
| I2cDisplay.TransmitBytePassIff | code/dcf77faker/src/i2c_display.rs:76-86 | corrected: a byte reports success exactly when every one of its sends succeeded |
| I2cDisplay.TransmitByteAsWritten | code/dcf77faker/src/i2c_display.rs:76-86 | as written: any error returned is a real failed send, and when all its sends succeeded the byte returns Ok having sent both nibbles' frames |
| I2cDisplay.AsWrittenDiffersOnlyInResult | code/dcf77faker/src/i2c_display.rs:85 | as written and corrected send the same frames; as written returns the lower nibble's result when the upper fails and Ok otherwise, corrected the upper error or else the lower result; so they differ whenever the upper nibble fails with an outcome other than the lower one's, or only the lower nibble fails |
| I2cDisplay.TransmitByteAsWrittenLosesErrors | code/dcf77faker/src/i2c_display.rs:85 | as written, a byte whose only failing send is the first of the lower nibble, or the first of the upper nibble, reports success; the corrected byte reports the bus error in both cases |
| I2cDisplay.TransmitStep | code/dcf77faker/src/i2c_display.rs:113-135 | as written, one lone nibble or byte: any error returned is a real failed send, and when all its sends succeeded it returns Ok having sent the step's frames |
| I2cDisplay.TransmitStepCorrected | code/dcf77faker/src/i2c_display.rs:113-135 | corrected: a step reports its first failed send, and on success sent the step's frames |
| I2cDisplay.StepAgrees | code/dcf77faker/src/i2c_display.rs:85 | wherever the corrected step succeeds, the step as written sends and returns exactly the same |
| I2cDisplay.RunFrom | code/dcf77faker/src/i2c_display.rs:113-139 | as written, `?` after each step: the run returns at the first step that returns an error; any error returned is a real failed send, and when all its sends succeeded it returns Ok having sent every step's frames |
| I2cDisplay.RunSteps | code/dcf77faker/src/i2c_display.rs:113-139 | as written, a whole run of steps, with the same two promises as `RunFrom` |
| I2cDisplay.RunFromCorrected | code/dcf77faker/src/i2c_display.rs:113-139 | corrected: a run of steps reports the first failure among its sends, and on success sent every step's frames |
| I2cDisplay.RunFromAgrees | code/dcf77faker/src/i2c_display.rs:113-139 | wherever the corrected run succeeds, the run as written sends and returns exactly the same; so an error reported as written is reported by the corrected run too |
| I2cDisplay.RunStepsCorrectedStopsAtFailure | code/dcf77faker/src/i2c_display.rs:113-139 | corrected: a failed run stops inside one step: every step before it completed, at least one of its frames was sent, and nothing of the steps after it |
| I2cDisplay.BasicSetup | code/dcf77faker/src/i2c_display.rs:107-143 | as written: any error returned is a real failed send; when all its sends succeeded it returns Ok having sent the frames of nibbles 3, 3, 3, 2 and bytes 0x28, 0x08, 0x01, 0x06, 0x0C, all as commands |
| I2cDisplay.BasicSetupCorrected | code/dcf77faker/src/i2c_display.rs:107-143 | corrected: set-up reports its first failed send; on success it sent the frames of the nine steps |
| I2cDisplay.BasicSetupLatches | code/dcf77faker/src/i2c_display.rs:107-143 | a set-up whose sends all succeeded makes the display latch the command nibbles 3, 3, 3, 2, 2, 8, 0, 8, 0, 1, 0, 6, 0, C in this order |
| I2cDisplay.BasicSetupCorrectedLatches | code/dcf77faker/src/i2c_display.rs:107-143 | corrected: a set-up that returns Ok makes the display latch the same fourteen command nibbles |
| I2cDisplay.SetLocation | code/dcf77faker/src/i2c_display.rs:146-148 | as written: moving the cursor sends the command 0x80 with the location ORed in; any error returned is a real failed send, and when all its sends succeeded it returns Ok |
| I2cDisplay.SetLocationCorrected | code/dcf77faker/src/i2c_display.rs:146-148 | corrected: the same command, reporting its first failed send |
| I2cDisplay.TextSteps | code/dcf77faker/src/i2c_display.rs:151-157 | text is written as one data byte (RS high) per character, in order |
| I2cDisplay.WriteText | code/dcf77faker/src/i2c_display.rs:151-157 | as written: writing returns at the first byte that returns an error, which is a real failed send; when all its sends succeeded it returns Ok having sent every byte |
| I2cDisplay.WriteTextCorrected | code/dcf77faker/src/i2c_display.rs:151-157 | corrected: writing stops at the first failed send and reports it; on success every byte was sent |
| I2cDisplay.CommandsAsWrittenLoseErrors | code/dcf77faker/src/i2c_display.rs:146-157 | as written, moving the cursor with only the lower nibble's first send failing returns Ok, and writing two bytes with only the first send failing goes on, sends 10 frames and returns Ok; corrected, both report the bus error, and the text stops after 4 frames |
| I2cDisplay.WriteTextDelivers | code/dcf77faker/src/i2c_display.rs:151-157 | after a write whose sends all succeeded the display assembles exactly the text's bytes, each as data |
| I2cDisplay.WriteTextCorrectedDelivers | code/dcf77faker/src/i2c_display.rs:151-157 | corrected: after a write that returns Ok the display assembles exactly the text's bytes, each as data |
| I2cDisplay.UpdateBacklight | code/dcf77faker/src/i2c_display.rs:99-104 | one frame is sent to the display's address: only the backlight bit, or nothing, so E stays low; the result is that send's result |
| I2cDisplay.LatchedAppend | code/dcf77faker/src/i2c_display.rs:49-70 | since each nibble ends with E low, the latches of consecutive transmissions add up |
| I2cDisplay.NibbleLatches | code/dcf77faker/src/i2c_display.rs:41-73 | a nibble's three frames make the display latch that nibble once |
| I2cDisplay.ByteLatches | code/dcf77faker/src/i2c_display.rs:76-86 | a byte makes the display latch its upper nibble and then its lower nibble |
| I2cDisplay.StepsLatch | code/dcf77faker/src/i2c_display.rs:107-157 | the frames of a fully successful run of steps latch exactly the steps' nibbles |
| Calibration.AdcLinearity | code/dcf77faker/src/calibration.rs:13-15 | the value is below 8 and is bits 2:0 of the word |
| Calibration.AdcBias | code/dcf77faker/src/calibration.rs:20-22 | the value is below 8 and is bits 5:3 of the word, shifted down |
| Calibration.Osc32k | code/dcf77faker/src/calibration.rs:27-29 | the value is below 128 and is bits 12:6 of the word, shifted down |
| Calibration.UsbTransn | code/dcf77faker/src/calibration.rs:34-36 | the value is below 32 and is bits 17:13 of the word, shifted down |
| Calibration.UsbTransp | code/dcf77faker/src/calibration.rs:41-43 | the value is below 32 and is bits 22:18 of the word, shifted down |
| Calibration.UsbTrim | code/dcf77faker/src/calibration.rs:48-50 | the value is below 8 and is bits 25:23 of the word, shifted down |
| Calibration.Dfll48mCoarse | code/dcf77faker/src/calibration.rs:55-57 | the value is below 64 and is bits 31:26 of the word, shifted down |
| Calibration.MasksTileWord | code/dcf77faker/src/calibration.rs:10-57 | the seven bit runs are pairwise disjoint and together cover all 32 bits |
| Calibration.PackRead | code/dcf77faker/src/calibration.rs:13-57 | the seven values, shifted back into place and ORed, give the word again: no bit is lost |
| Calibration.ReadPack | code/dcf77faker/src/calibration.rs:13-57 | values that fit their runs are read back unchanged from the word that packs them |
| Calibration.ReadIsLocal | code/dcf77faker/src/calibration.rs:13-57 | each value depends only on the bits of its own run |

## Left out

- Register access, busy-waiting and interrupt flags. The SERCOM, PWM, clock and pin set-up code (`setup_controller`, `init.rs`, `pwm.rs`, `rtc.rs`, `tick.rs`) is left out. So are waiting for and clearing the MB flag, and the `SyncVolatileCell` wrapper. The model keeps only the values the code computes and the order of the register writes made by `send`.
- `read_calibration_area`: the volatile read at 0x0080_6020 is hardware, so the calibration word is a parameter of every extractor.
- The delays of the display driver (`short_delay`, `long_delay`, the 500 ns pauses): timing is not modelled.
- Concurrency between the interrupt and the main loop: the two are modelled as separate steps over a shared state, and the loop's busy wait is a pass that does nothing while the flag is clear.
- The panic handler, the button pins, and the `fmt::Display` text of `I2cError`. `utils/clock_frequency.py` is not part of this model.
- `I2cDisplaySercom0::new` and `set_wants_backlight`: they only store their arguments, which the `Display` datatype records directly.
- The display driver's sends are an oracle (`bus`) of per-send outcomes rather than calls into `I2cController.Send`. Each display send is one single-byte `Send` to the display's address, whose outcomes are characterised by `I2cController.SendSucceeds`. The address is recorded once per operation, as `Transfer.to`, and every display operation ensures it is the display's own.
- I2cController.CheckBusStatus: follows the code's reading of RXNACK (a clear bit means not acknowledged). What the bit means on the hardware is not modelled.
- `usize` indices are unbounded naturals. A transfer long enough to overflow `bytes_written` is not modelled.
- Dcf77.IncrementMinute: the `+= 1` on `u8` fields wraps at 256 in the model, as in a release build. A debug build would panic instead. Neither is reachable from valid records.
- Dcf77.NewFrame: the start stamp's frame is stated group by group, as bit lists, not as a single 64-bit number.
- Scheduler.MinuteOfBroadcast: states the frame's bits only while the time record stays as loaded. The re-encode one minute later is stated separately, by `Scheduler.FrameThenReencode`.
- I2cDisplay.RunStepsCorrectedStopsAtFailure: for the step a failed run stops in, only the number of its frames that went out is stated, not their values.
- I2cDisplay.RunFrom, I2cDisplay.BasicSetup, I2cDisplay.SetLocation and I2cDisplay.WriteText (as written): an `Ok` result is not promised to mean that every send succeeded, because it does not in the code; what the display receives is stated for runs whose sends all succeeded. The corrected members promise it.
- I2cDisplay.RunFrom: a failed run as written is not characterised step by step the way `I2cDisplay.RunStepsCorrectedStopsAtFailure` characterises the corrected one; `I2cDisplay.RunFromAgrees` relates the two runs instead.
- Foreground.Render: the ASCII digits are stated for valid records only. Out-of-range digits give the wrapped `b'0' + x` of a release build.

## Findings

| source | as written | input that shows it | evidently intended | confidence | as-written member | corrected member |
|---|---|---|---|---|---|---|
| code/dcf77faker/src/i2c_display.rs:85 | `upper_error.or(lower_error)` returns `Ok` whenever the upper nibble succeeded, dropping the lower nibble's error; when the upper nibble failed it returns the lower nibble's result, dropping the upper error if the lower nibble succeeded. `basic_setup`, `set_location` and `write_text` pass that `Ok` on and carry on after the failed send | a bus on which only send 3, the first frame of the lower nibble, fails, or only send 0, the first frame of the upper nibble: either way the byte reports `Ok`; writing "AB" with only send 0 failing sends all 10 frames and returns `Ok` | report the upper nibble's error if any, else the lower nibble's result, so that no failed send is reported as success | high for the code's behaviour, which follows from the definition of `Result::or`; not executed | I2cDisplay.TransmitByteAsWritten, I2cDisplay.TransmitByteAsWrittenLosesErrors, I2cDisplay.CommandsAsWrittenLoseErrors | I2cDisplay.TransmitByte, I2cDisplay.TransmitBytePassIff, I2cDisplay.WriteTextCorrectedDelivers |

=== FILE: bits.dfy ===
/**
 Machine integers and little-endian bit strings.

 The firmware works on fixed-width unsigned integers. Where their arithmetic
 matters they are modelled as bounded subsets of `int`; a `u64` that is only
 ever built bit by bit, tested in its lowest bit and shifted right is modelled
 as its 64 bits, least significant first, and `Value` gives back the number.
 */
module Bits {

  type u8 = x: int | 0 <= x < 0x100
  type u16 = x: int | 0 <= x < 0x1_0000
  type u32 = x: int | 0 <= x < 0x1_0000_0000

  /** A `u64` as its bits, bit 0 first. */
  type Word64 = s: seq<bool> | |s| == 64 witness seq(64, i => false)

  /** `x + 1` on a `u8`, wrapping at 256 as release builds do. */
  function WrappingInc(x: u8): (r: u8)
    ensures x < 0xFF ==> r == x + 1
    ensures x == 0xFF ==> r == 0
  {
    if x == 0xFF then 0 else x + 1
  }

  function Pow2(n: nat): (r: nat)
    ensures r >= 1
  {
    if n == 0 then 1 else 2 * Pow2(n - 1)
  }

  /** `Pow2` grows with its exponent. */
  lemma {:induction false} Pow2Monotone(a: nat, b: nat)
    requires a <= b
    ensures Pow2(a) <= Pow2(b)
  {
    if a < b {
      Pow2Monotone(a, b - 1);
    }
  }

  /** The powers of two the field widths of the frame need. */
  lemma Pow2Values()
    ensures Pow2(1) == 2 && Pow2(2) == 4 && Pow2(3) == 8 && Pow2(4) == 16
    ensures Pow2(8) == 0x100 && Pow2(14) == 0x4000
  {
  }

  function Zeros(n: nat): (r: seq<bool>)
    ensures |r| == n
    ensures forall i :: 0 <= i < n ==> !r[i]
  {
    seq(n, i => false)
  }

  /** The number whose binary digits, least significant first, are `s`. */
  function Value(s: seq<bool>): nat
  {
    if |s| == 0 then 0 else (if s[0] then 1 else 0) + 2 * Value(s[1..])
  }

  /** The lowest `width` binary digits of `x`, least significant first. */
  function BitsOf(x: nat, width: nat): (r: seq<bool>)
    ensures |r| == width
  {
    if width == 0 then [] else [x % 2 == 1] + BitsOf(x / 2, width - 1)
  }

  /** The digits of 0 are all clear. */
  lemma {:induction false} BitsOfZero(width: nat)
    ensures BitsOf(0, width) == Zeros(width)
  {
    if width > 0 {
      BitsOfZero(width - 1);
      assert Zeros(width) == [false] + Zeros(width - 1);
    }
  }

  /** Number of set bits. */
  function Count(s: seq<bool>): nat
  {
    if |s| == 0 then 0 else Count(s[..|s| - 1]) + (if s[|s| - 1] then 1 else 0)
  }

  /** Exclusive-or of all bits, folded from the first to the last. */
  function Parity(s: seq<bool>): bool
  {
    if |s| == 0 then false else Parity(s[..|s| - 1]) != s[|s| - 1]
  }

  /** A `u64` shifted right by one place: bit 63 becomes 0. */
  function ShiftRight(w: Word64): (r: Word64)
    ensures forall i :: 0 <= i < 63 ==> r[i] == w[i + 1]
    ensures !r[63]
  {
    w[1..] + [false]
  }

  lemma {:induction false} ParityIsOddCount(s: seq<bool>)
    ensures Parity(s) <==> Count(s) % 2 == 1
  {
    if |s| > 0 {
      ParityIsOddCount(s[..|s| - 1]);
    }
  }

  /** Appending the parity bit makes the population count even. */
  lemma EvenWithParityBit(s: seq<bool>)
    ensures Count(s + [Parity(s)]) % 2 == 0
  {
    var t := s + [Parity(s)];
    assert t[..|t| - 1] == s;
    ParityIsOddCount(s);
  }

  /** The parity of a concatenation is the exclusive-or of the parities of its parts. */
  lemma {:induction false} ParityConcat(a: seq<bool>, b: seq<bool>)
    ensures Parity(a + b) == (Parity(a) != Parity(b))
    decreases |b|
  {
    if |b| > 0 {
      var c := b[..|b| - 1];
      assert (a + b)[..|a + b| - 1] == a + c;
      assert b[..|b| - 1] == c;
      ParityConcat(a, c);
    } else {
      assert a + b == a;
    }
  }

  lemma {:induction false} ParityOfZeros(n: nat)
    ensures !Parity(Zeros(n))
  {
    if n > 0 {
      assert Zeros(n)[..n - 1] == Zeros(n - 1);
      ParityOfZeros(n - 1);
    }
  }

  /** A group whose parity is even has its last bit equal to the parity of the others. */
  lemma LastBitIsParityOfRest(s: seq<bool>)
    requires |s| > 0
    requires !Parity(s)
    ensures s == s[..|s| - 1] + [Parity(s[..|s| - 1])]
  {
  }

  lemma {:induction false} ValueBound(s: seq<bool>)
    ensures Value(s) < Pow2(|s|)
  {
    if |s| > 0 {
      ValueBound(s[1..]);
    }
  }

  lemma {:induction false} ValueConcat(a: seq<bool>, b: seq<bool>)
    ensures Value(a + b) == Value(a) + Pow2(|a|) * Value(b)
  {
    if |a| > 0 {
      assert (a + b)[1..] == a[1..] + b;
      ValueConcat(a[1..], b);
      var low, rest, p, vb := (if a[0] then 1 else 0), Value(a[1..]), Pow2(|a| - 1), Value(b);
      assert Value(a + b) == low + 2 * (rest + p * vb);
      DoubleDistributes(rest, p, vb);
    } else {
      assert a + b == b;
    }
  }

  lemma DoubleDistributes(x: int, y: int, z: int)
    ensures 2 * (x + y * z) == 2 * x + (2 * y) * z
  {
  }

  lemma {:induction false} ZerosValue(n: nat)
    ensures Value(Zeros(n)) == 0
  {
    if n > 0 {
      assert Zeros(n)[1..] == Zeros(n - 1);
      ZerosValue(n - 1);
    }
  }

  /** Trailing zero bits do not change the number. */
  lemma ValueWithZeros(s: seq<bool>, n: nat)
    ensures Value(s + Zeros(n)) == Value(s)
  {
    ValueConcat(s, Zeros(n));
    ZerosValue(n);
  }

  /** `ShiftRight` halves the number, as `>>= 1` does. */
  lemma ShiftRightHalves(w: Word64)
    ensures Value(ShiftRight(w)) == Value(w) / 2
  {
    ValueWithZeros(w[1..], 1);
    assert Zeros(1) == [false];
  }

  lemma MulAtLeast(d: nat, k: int)
    requires k >= 1
    ensures d * k >= d
  {
  }

  /** Quotient and remainder are the only ones with `x == d * q + r` and `0 <= r < d`. */
  lemma DivModUnique(x: int, d: int, q: int, r: int)
    requires d > 0 && 0 <= r < d && x == d * q + r
    ensures x / d == q && x % d == r
  {
    var q0, r0 := x / d, x % d;
    assert d * q0 + r0 == d * q + r;
    if q0 > q {
      MulAtLeast(d, q0 - q);
    } else if q0 < q {
      MulAtLeast(d, q - q0);
    }
  }

  lemma ModDoubling(x: nat, p: nat)
    requires p >= 1
    ensures x % (2 * p) == x % 2 + 2 * ((x / 2) % p)
  {
    var a, b := x / 2, x % 2;
    var q, r := a / p, a % p;
    assert a == p * q + r;
    assert x == (2 * p) * q + (2 * r + b) by {
      assert x == 2 * a + b;
      assert 2 * (p * q) == (2 * p) * q;
    }
    DivModUnique(x, 2 * p, q, 2 * r + b);
  }

  /** Reading back the lowest `width` digits of `x` gives `x` modulo `2^width`. */
  lemma {:induction false} ValueOfBitsOf(x: nat, width: nat)
    ensures Value(BitsOf(x, width)) == x % Pow2(width)
  {
    if width > 0 {
      ValueOfBitsOf(x / 2, width - 1);
      assert BitsOf(x, width)[1..] == BitsOf(x / 2, width - 1);
      ModDoubling(x, Pow2(width - 1));
    }
  }

  /** `BitsOf` is a right inverse of `Value` on strings of its width. */
  lemma {:induction false} BitsOfValue(s: seq<bool>)
    ensures BitsOf(Value(s), |s|) == s
  {
    if |s| > 0 {
      BitsOfValue(s[1..]);
      var v := Value(s);
      assert v % 2 == 1 <==> s[0];
      assert v / 2 == Value(s[1..]);
    }
  }

  lemma RoundTripInWidth(x: nat, width: nat)
    requires x < Pow2(width)
    ensures Value(BitsOf(x, width)) == x
  {
    ValueOfBitsOf(x, width);
  }
}

=== FILE: calibration.dfy ===
/**
 The factory calibration word of the SAM L21, read from non-volatile
 memory, and the seven calibration values packed into it. Each value is a
 run of bits of the 32-bit word, shifted down and masked; the runs tile the
 word from bit 0 to bit 31 without gaps or overlaps.
 */
module Calibration {

  /** Bits 2:0, for the ADC's reference buffer bias. */
  function AdcLinearity(w: bv32): (r: bv8)
    ensures r < 8 && ((r as bv32) << 0) == (w & AdcLinearityMask)
  {
    ((w >> 0) & 0x7) as bv8
  }

  /** Bits 5:3, for the ADC's comparator bias. */
  function AdcBias(w: bv32): (r: bv8)
    ensures r < 8 && ((r as bv32) << 3) == (w & AdcBiasMask)
  {
    ((w >> 3) & 0x7) as bv8
  }

  /** Bits 12:6, for the 32 kHz internal oscillator. */
  function Osc32k(w: bv32): (r: bv8)
    ensures r < 128 && ((r as bv32) << 6) == (w & Osc32kMask)
  {
    ((w >> 6) & 0x7F) as bv8
  }

  /** Bits 17:13, the USB pad's TRANSN value. */
  function UsbTransn(w: bv32): (r: bv8)
    ensures r < 32 && ((r as bv32) << 13) == (w & UsbTransnMask)
  {
    ((w >> 13) & 0x1F) as bv8
  }

  /** Bits 22:18, the USB pad's TRANSP value. */
  function UsbTransp(w: bv32): (r: bv8)
    ensures r < 32 && ((r as bv32) << 18) == (w & UsbTranspMask)
  {
    ((w >> 18) & 0x1F) as bv8
  }

  /** Bits 25:23, the USB pad's TRIM value. */
  function UsbTrim(w: bv32): (r: bv8)
    ensures r < 8 && ((r as bv32) << 23) == (w & UsbTrimMask)
  {
    ((w >> 23) & 0x7) as bv8
  }

  /** Bits 31:26, the DFLL48M's coarse value. */
  function Dfll48mCoarse(w: bv32): (r: bv8)
    ensures r < 64 && ((r as bv32) << 26) == (w & Dfll48mCoarseMask)
  {
    ((w >> 26) & 0x3F) as bv8
  }

  // Where each value sits in the word.
  const AdcLinearityMask: bv32 := 0x0000_0007
  const AdcBiasMask: bv32 := 0x0000_0038
  const Osc32kMask: bv32 := 0x0000_1FC0
  const UsbTransnMask: bv32 := 0x0003_E000
  const UsbTranspMask: bv32 := 0x007C_0000
  const UsbTrimMask: bv32 := 0x0380_0000
  const Dfll48mCoarseMask: bv32 := 0xFC00_0000

  /** The positions of the seven values are disjoint and together cover every bit of the word. */
  lemma MasksTileWord()
    ensures AdcLinearityMask | AdcBiasMask | Osc32kMask | UsbTransnMask
          | UsbTranspMask | UsbTrimMask | Dfll48mCoarseMask == 0xFFFF_FFFF
    ensures AdcLinearityMask & AdcBiasMask == 0 && AdcBiasMask & Osc32kMask == 0
    ensures Osc32kMask & UsbTransnMask == 0 && UsbTransnMask & UsbTranspMask == 0
    ensures UsbTranspMask & UsbTrimMask == 0 && UsbTrimMask & Dfll48mCoarseMask == 0
    ensures (AdcLinearityMask | AdcBiasMask | Osc32kMask | UsbTransnMask | UsbTranspMask | UsbTrimMask)
          & Dfll48mCoarseMask == 0
    ensures (AdcLinearityMask | AdcBiasMask | Osc32kMask | UsbTransnMask | UsbTranspMask) & UsbTrimMask == 0
    ensures (AdcLinearityMask | AdcBiasMask | Osc32kMask | UsbTransnMask) & UsbTranspMask == 0
    ensures (AdcLinearityMask | AdcBiasMask | Osc32kMask) & UsbTransnMask == 0
    ensures (AdcLinearityMask | AdcBiasMask) & Osc32kMask == 0
  {
  }

  /** The seven values, as the firmware reads them out. */
  datatype Values = Values(
    adcLinearity: bv8, adcBias: bv8, osc32k: bv8,
    usbTransn: bv8, usbTransp: bv8, usbTrim: bv8, dfll48mCoarse: bv8)

  /** Every value fits its run of bits. */
  predicate InRange(v: Values)
  {
    && v.adcLinearity < 8 && v.adcBias < 8 && v.osc32k < 128
    && v.usbTransn < 32 && v.usbTransp < 32 && v.usbTrim < 8 && v.dfll48mCoarse < 64
  }

  function Read(w: bv32): (v: Values)
    ensures InRange(v)
  {
    Values(AdcLinearity(w), AdcBias(w), Osc32k(w), UsbTransn(w), UsbTransp(w), UsbTrim(w), Dfll48mCoarse(w))
  }

  /** The word that holds `v`: each value shifted up to its position. */
  function Pack(v: Values): bv32
  {
    (v.adcLinearity as bv32) | ((v.adcBias as bv32) << 3) | ((v.osc32k as bv32) << 6)
    | ((v.usbTransn as bv32) << 13) | ((v.usbTransp as bv32) << 18) | ((v.usbTrim as bv32) << 23)
    | ((v.dfll48mCoarse as bv32) << 26)
  }

  /** The seven values carry every bit of the word: packing them back gives the word. */
  lemma PackRead(w: bv32)
    ensures Pack(Read(w)) == w
  {
    var v := Read(w);
    assert Pack(v) == (w & AdcLinearityMask) | (w & AdcBiasMask) | (w & Osc32kMask) | (w & UsbTransnMask)
      | (w & UsbTranspMask) | (w & UsbTrimMask) | (w & Dfll48mCoarseMask);
  }

  /** Values that fit their runs are read back unchanged from the word that packs them. */
  lemma ReadPack(v: Values)
    requires InRange(v)
    ensures Read(Pack(v)) == v
  {
  }

  /** Each value depends only on its own bits: changing bits outside its run leaves it alone. */
  lemma ReadIsLocal(w: bv32, x: bv32)
    ensures w & Osc32kMask == x & Osc32kMask ==> Osc32k(w) == Osc32k(x)
    ensures w & Dfll48mCoarseMask == x & Dfll48mCoarseMask ==> Dfll48mCoarse(w) == Dfll48mCoarse(x)
    ensures w & AdcLinearityMask == x & AdcLinearityMask ==> AdcLinearity(w) == AdcLinearity(x)
    ensures w & AdcBiasMask == x & AdcBiasMask ==> AdcBias(w) == AdcBias(x)
    ensures w & UsbTransnMask == x & UsbTransnMask ==> UsbTransn(w) == UsbTransn(x)
    ensures w & UsbTranspMask == x & UsbTranspMask ==> UsbTransp(w) == UsbTransp(x)
    ensures w & UsbTrimMask == x & UsbTrimMask ==> UsbTrim(w) == UsbTrim(x)
  {
  }
}

=== FILE: dcf77.dfy ===
/**
 The DCF77 time code: the record of BCD digit fields that one minute's
 broadcast carries, the minute/hour clock that advances it, and its
 serialisation into the 59 meaningful bits of a `u64` frame.
 */
module Dcf77 {
  import opened Bits
  import opened Wrappers

  /** Carrier frequency of the DCF77 transmitter. */
  const FrequencyHz: u32 := 77_500

  /** One minute's time code. Each decimal digit is a field of its own. */
  datatype Dcf77Data = Dcf77Data(
    civilWarning: u16,             // bits 1..14; only the low 14 bits are used
    abnormalOperation: bool,       // bit 15
    summerAnnouncement: bool,      // bit 16
    cest: bool,                    // bit 17
    cet: bool,                     // bit 18
    leapSecondAnnouncement: bool,  // bit 19
    minuteOnes: u8,                // bits 21..24, weights 1 2 4 8
    minuteTens: u8,                // bits 25..27, weights 10 20 40
    hourOnes: u8,                  // bits 29..32, weights 1 2 4 8
    hourTens: u8,                  // bits 33..34, weights 10 20
    dayOfMonthOnes: u8,            // bits 36..39, weights 1 2 4 8
    dayOfMonthTens: u8,            // bits 40..41, weights 10 20
    dayOfWeek: u8,                 // bits 42..44, 1 = Monday .. 7 = Sunday
    monthOnes: u8,                 // bits 45..48, weights 1 2 4 8
    monthTen: bool,                // bit 49, weight 10
    yearInCenturyOnes: u8,         // bits 50..53, weights 1 2 4 8
    yearInCenturyTens: u8          // bits 54..57, weights 10 20 40 80
  )

  function Minute(d: Dcf77Data): int { 10 * d.minuteTens + d.minuteOnes }
  function Hour(d: Dcf77Data): int { 10 * d.hourTens + d.hourOnes }
  function DayOfMonth(d: Dcf77Data): int { 10 * d.dayOfMonthTens + d.dayOfMonthOnes }
  function Month(d: Dcf77Data): int { (if d.monthTen then 10 else 0) + d.monthOnes }
  function Year(d: Dcf77Data): int { 10 * d.yearInCenturyTens + d.yearInCenturyOnes }

  /** Minutes since midnight. */
  function MinuteOfDay(d: Dcf77Data): int { 60 * Hour(d) + Minute(d) }

  /** Minute and hour digits of a time of day from 00:00 to 23:59. */
  predicate ValidTime(d: Dcf77Data)
  {
    && d.minuteOnes < 10 && d.minuteTens < 6
    && d.hourOnes < 10 && Hour(d) < 24
  }

  /** Every field holds a decimal digit of a plausible date and time. */
  predicate Valid(d: Dcf77Data)
  {
    && ValidTime(d)
    && d.civilWarning < 0x4000
    && d.dayOfMonthOnes < 10 && d.dayOfMonthTens < 4
    && 1 <= d.dayOfWeek <= 7
    && d.monthOnes < 10
    && d.yearInCenturyOnes < 10 && d.yearInCenturyTens < 10
  }

  /** Every field fits the bits the frame reserves for it. */
  predicate InWidth(d: Dcf77Data)
  {
    && d.civilWarning < 0x4000
    && d.minuteOnes < 16 && d.minuteTens < 8
    && d.hourOnes < 16 && d.hourTens < 4
    && d.dayOfMonthOnes < 16 && d.dayOfMonthTens < 4
    && d.dayOfWeek < 8
    && d.monthOnes < 16
    && d.yearInCenturyOnes < 16 && d.yearInCenturyTens < 16
  }

  /** `a` and `b` differ at most in their minute and hour digits. */
  predicate SameDateAndFlags(a: Dcf77Data, b: Dcf77Data)
  {
    && a.civilWarning == b.civilWarning
    && a.abnormalOperation == b.abnormalOperation
    && a.summerAnnouncement == b.summerAnnouncement
    && a.cest == b.cest && a.cet == b.cet
    && a.leapSecondAnnouncement == b.leapSecondAnnouncement
    && a.dayOfMonthOnes == b.dayOfMonthOnes && a.dayOfMonthTens == b.dayOfMonthTens
    && a.dayOfWeek == b.dayOfWeek
    && a.monthOnes == b.monthOnes && a.monthTen == b.monthTen
    && a.yearInCenturyOnes == b.yearInCenturyOnes && a.yearInCenturyTens == b.yearInCenturyTens
  }

  /** The fixed stamp the firmware starts from. */
  function New(): (d: Dcf77Data)
    ensures Valid(d)
    ensures Hour(d) == 10 && Minute(d) == 40
    ensures DayOfMonth(d) == 10 && d.dayOfWeek == 2 && Month(d) == 4 && Year(d) == 90
    ensures d.cest && !d.cet
    ensures !d.abnormalOperation && !d.summerAnnouncement && !d.leapSecondAnnouncement
    ensures d.civilWarning == 0
  {
    Dcf77Data(
      civilWarning := 0,
      abnormalOperation := false,
      summerAnnouncement := false,
      cest := true,
      cet := false,
      leapSecondAnnouncement := false,
      minuteOnes := 0,
      minuteTens := 4,
      hourOnes := 0,
      hourTens := 1,
      dayOfMonthOnes := 0,
      dayOfMonthTens := 1,
      dayOfWeek := 2,
      monthOnes := 4,
      monthTen := false,
      yearInCenturyOnes := 0,
      yearInCenturyTens := 9)
  }

  /**
   Advances the clock by one minute: minute ones carry into minute tens,
   minute tens into the hour, and 24:00 wraps to 00:00. The date is
   deliberately left alone.
   */
  function IncrementMinute(d: Dcf77Data): (r: Dcf77Data)
    ensures SameDateAndFlags(d, r)
  {
    var minuteOnes := WrappingInc(d.minuteOnes);
    if minuteOnes < 10 then
      d.(minuteOnes := minuteOnes)
    else
      var minuteTens := WrappingInc(d.minuteTens);
      if minuteTens < 6 then
        d.(minuteOnes := 0, minuteTens := minuteTens)
      else
        var hourOnes := WrappingInc(d.hourOnes);
        if d.hourTens == 2 && hourOnes >= 4 then
          d.(minuteOnes := 0, minuteTens := 0, hourOnes := 0, hourTens := 0)
        else if hourOnes < 10 then
          d.(minuteOnes := 0, minuteTens := 0, hourOnes := hourOnes)
        else
          d.(minuteOnes := 0, minuteTens := 0, hourOnes := 0, hourTens := WrappingInc(d.hourTens))
  }

  /** `IncrementMinute` applied `n` times. */
  function IncrementMinutes(d: Dcf77Data, n: nat): Dcf77Data
    decreases n
  {
    if n == 0 then d else IncrementMinutes(IncrementMinute(d), n - 1)
  }

  // ---------------------------------------------------------------------
  // Serialisation

  function FlagBits(d: Dcf77Data): (r: seq<bool>)
    ensures |r| == 5
  {
    [d.abnormalOperation, d.summerAnnouncement, d.cest, d.cet, d.leapSecondAnnouncement]
  }

  /** Bits 21..27: minute ones then minute tens, lowest weight first. */
  function MinuteBits(d: Dcf77Data): (r: seq<bool>)
    ensures |r| == 7
  {
    BitsOf(d.minuteOnes, 4) + BitsOf(d.minuteTens, 3)
  }

  /** Bits 29..34: hour ones then hour tens. */
  function HourBits(d: Dcf77Data): (r: seq<bool>)
    ensures |r| == 6
  {
    BitsOf(d.hourOnes, 4) + BitsOf(d.hourTens, 2)
  }

  /** Bits 36..44: day of month ones and tens, day of week. */
  function DayBits(d: Dcf77Data): (r: seq<bool>)
    ensures |r| == 9
  {
    BitsOf(d.dayOfMonthOnes, 4) + BitsOf(d.dayOfMonthTens, 2) + BitsOf(d.dayOfWeek, 3)
  }

  /** Bits 45..49: month ones, month tens. */
  function MonthBits(d: Dcf77Data): (r: seq<bool>)
    ensures |r| == 5
  {
    BitsOf(d.monthOnes, 4) + [d.monthTen]
  }

  /** Bits 50..57: year within the century, ones then tens. */
  function YearBits(d: Dcf77Data): (r: seq<bool>)
    ensures |r| == 8
  {
    BitsOf(d.yearInCenturyOnes, 4) + BitsOf(d.yearInCenturyTens, 4)
  }

  /** Bits 36..57: the date group, covered by one parity bit. */
  function DateBits(d: Dcf77Data): (r: seq<bool>)
    ensures |r| == 22
  {
    DayBits(d) + MonthBits(d) + YearBits(d)
  }

  /** Bits 0..20: minute marker 0, civil warning bits, flags, time marker 1. */
  function FrameHead(d: Dcf77Data): (r: seq<bool>)
    ensures |r| == 21
  {
    [false] + BitsOf(d.civilWarning, 14) + FlagBits(d) + [true]
  }

  /** A group of bits followed by its even-parity bit. */
  function WithParity(s: seq<bool>): (r: seq<bool>)
    ensures |r| == |s| + 1 && r[..|s|] == s
    ensures Count(r) % 2 == 0
  {
    EvenWithParityBit(s);
    s + [Parity(s)]
  }

  /**
   The frame as the `u64` the firmware builds, bit `i` being the bit sent in
   second `i`: bit 0 is the minute marker 0, bits 1..14 the civil warning
   bits, 15..19 the flags, bit 20 the time marker 1, and each of the minute,
   hour and date groups is followed by its even-parity bit (28, 35, 58).
   Nothing above bit 58 is set.
   */
  function ToBits(d: Dcf77Data): Word64
  {
    FrameHead(d) + WithParity(MinuteBits(d)) + WithParity(HourBits(d)) + WithParity(DateBits(d))
    + Zeros(5)
  }

  /** Reads bits `lo..hi-1` of a bit string as a small unsigned number. */
  function Field(s: seq<bool>, lo: nat, hi: nat): (r: u8)
    requires lo <= hi <= |s| && hi - lo <= 8
    ensures r == Value(s[lo..hi]) && r < Pow2(hi - lo)
  {
    ValueBound(s[lo..hi]);
    Pow2Monotone(hi - lo, 8);
    Pow2Values();
    Value(s[lo..hi])
  }

  /** Bits 1..14 of the frame head as the civil warning number. */
  function CivilWarningField(head: seq<bool>): (r: u16)
    requires |head| == 21
    ensures r == Value(head[1..15]) && r < 0x4000
  {
    ValueBound(head[1..15]);
    Pow2Values();
    Value(head[1..15])
  }

  /**
   A receiver's view of a frame: rejects a frame whose markers or parity
   bits are wrong, otherwise reads every field back from its bit range.
   Bits 59..63 are never transmitted and are ignored.
   */
  function Decode(f: Word64): (r: Option<Dcf77Data>)
    ensures r.Some? ==> InWidth(r.value)
  {
    var head, minute, hour, date := f[..21], f[21..29], f[29..36], f[36..59];
    if head[0] || !head[20] || Parity(minute) || Parity(hour) || Parity(date) then
      None
    else
      Pow2Values();
      Some(Dcf77Data(
        civilWarning := CivilWarningField(head),
        abnormalOperation := head[15],
        summerAnnouncement := head[16],
        cest := head[17],
        cet := head[18],
        leapSecondAnnouncement := head[19],
        minuteOnes := Field(minute, 0, 4),
        minuteTens := Field(minute, 4, 7),
        hourOnes := Field(hour, 0, 4),
        hourTens := Field(hour, 4, 6),
        dayOfMonthOnes := Field(date, 0, 4),
        dayOfMonthTens := Field(date, 4, 6),
        dayOfWeek := Field(date, 6, 9),
        monthOnes := Field(date, 9, 13),
        monthTen := date[13],
        yearInCenturyOnes := Field(date, 14, 18),
        yearInCenturyTens := Field(date, 18, 22)))
  }

  // ---------------------------------------------------------------------
  // The clock

  /** Within a valid time, the minute of the day fixes all four digits. */
  lemma MinuteOfDayDeterminesTime(a: Dcf77Data, b: Dcf77Data)
    requires ValidTime(a) && ValidTime(b)
    requires MinuteOfDay(a) == MinuteOfDay(b)
    ensures a.minuteOnes == b.minuteOnes && a.minuteTens == b.minuteTens
    ensures a.hourOnes == b.hourOnes && a.hourTens == b.hourTens
  {
    DivModUnique(MinuteOfDay(a), 60, Hour(a), Minute(a));
    DivModUnique(MinuteOfDay(b), 60, Hour(b), Minute(b));
    DivModUnique(Minute(a), 10, a.minuteTens, a.minuteOnes);
    DivModUnique(Minute(b), 10, b.minuteTens, b.minuteOnes);
    DivModUnique(Hour(a), 10, a.hourTens, a.hourOnes);
    DivModUnique(Hour(b), 10, b.hourTens, b.hourOnes);
  }

  /** One increment of a valid time moves it one minute on, from 23:59 back to 00:00. */
  lemma IncrementMinuteAdvances(d: Dcf77Data)
    requires ValidTime(d)
    ensures ValidTime(IncrementMinute(d))
    ensures MinuteOfDay(IncrementMinute(d)) == if MinuteOfDay(d) == 1439 then 0 else MinuteOfDay(d) + 1
  {
    IncrementMinuteStaysValid(d);
    if Minute(d) < 59 {
      IncrementWithinHour(d);
    } else if Hour(d) < 23 {
      IncrementToNextHour(d);
    } else {
      IncrementAtMidnight(d);
    }
  }

  lemma IncrementWithinHour(d: Dcf77Data)
    requires ValidTime(d) && Minute(d) < 59
    ensures Hour(IncrementMinute(d)) == Hour(d) && Minute(IncrementMinute(d)) == Minute(d) + 1
  {
    if d.minuteOnes < 9 {
      assert IncrementMinute(d) == d.(minuteOnes := d.minuteOnes + 1);
    } else {
      assert IncrementMinute(d) == d.(minuteOnes := 0, minuteTens := d.minuteTens + 1);
    }
  }

  lemma IncrementToNextHour(d: Dcf77Data)
    requires ValidTime(d) && Minute(d) == 59 && Hour(d) < 23
    ensures Hour(IncrementMinute(d)) == Hour(d) + 1 && Minute(IncrementMinute(d)) == 0
  {
    if d.hourOnes < 9 {
      assert IncrementMinute(d) == d.(minuteOnes := 0, minuteTens := 0, hourOnes := d.hourOnes + 1);
    } else {
      assert IncrementMinute(d) == d.(minuteOnes := 0, minuteTens := 0, hourOnes := 0, hourTens := d.hourTens + 1);
    }
  }

  lemma IncrementAtMidnight(d: Dcf77Data)
    requires ValidTime(d) && Minute(d) == 59 && Hour(d) == 23
    ensures Hour(IncrementMinute(d)) == 0 && Minute(IncrementMinute(d)) == 0
  {
    assert IncrementMinute(d) == d.(minuteOnes := 0, minuteTens := 0, hourOnes := 0, hourTens := 0);
  }

  /** The increment keeps every digit of a valid time of day in range. */
  lemma IncrementMinuteStaysValid(d: Dcf77Data)
    requires ValidTime(d)
    ensures ValidTime(IncrementMinute(d))
  {
    var r := IncrementMinute(d);
    if d.minuteOnes < 9 {
      assert r.minuteOnes == d.minuteOnes + 1 && r.minuteTens == d.minuteTens;
      assert r.hourOnes == d.hourOnes && r.hourTens == d.hourTens;
    } else if d.minuteTens < 5 {
      assert r.minuteOnes == 0 && r.minuteTens == d.minuteTens + 1;
      assert r.hourOnes == d.hourOnes && r.hourTens == d.hourTens;
    } else if d.hourTens == 2 && d.hourOnes == 3 {
      assert r.minuteOnes == 0 && r.minuteTens == 0 && r.hourOnes == 0 && r.hourTens == 0;
    } else if d.hourOnes < 9 {
      assert r.minuteOnes == 0 && r.minuteTens == 0;
      assert r.hourOnes == d.hourOnes + 1 && r.hourTens == d.hourTens;
    } else {
      assert r.minuteOnes == 0 && r.minuteTens == 0;
      assert r.hourOnes == 0 && r.hourTens == d.hourTens + 1;
    }
  }

  /** `n` increments never touch the date or the flags. */
  lemma {:induction false} IncrementMinutesKeepsDate(d: Dcf77Data, n: nat)
    ensures SameDateAndFlags(d, IncrementMinutes(d, n))
    decreases n
  {
    if n > 0 {
      IncrementMinutesKeepsDate(IncrementMinute(d), n - 1);
    }
  }

  /** `n` increments advance a valid time of day by `n` minutes modulo a day. */
  lemma {:induction false} IncrementMinutesAdvances(d: Dcf77Data, n: nat)
    requires ValidTime(d)
    ensures ValidTime(IncrementMinutes(d, n))
    ensures MinuteOfDay(IncrementMinutes(d, n)) == (MinuteOfDay(d) + n) % 1440
    decreases n
  {
    MinuteOfDayBound(d);
    if n > 0 {
      var e := IncrementMinute(d);
      IncrementMinuteAdvances(d);
      IncrementMinutesAdvances(e, n - 1);
      ModAddOne(MinuteOfDay(d), MinuteOfDay(e), MinuteOfDay(IncrementMinutes(d, n)), n - 1);
    }
  }

  lemma ModAddOne(m: int, a: int, c: int, k: nat)
    requires 0 <= m < 1440 && a == (if m == 1439 then 0 else m + 1) && c == (a + k) % 1440
    ensures c == (m + k + 1) % 1440
  {
  }

  lemma MinuteOfDayBound(d: Dcf77Data)
    requires ValidTime(d)
    ensures 0 <= MinuteOfDay(d) < 1440
  {
  }

  lemma ModWholeDays(m: int, n: nat)
    requires 0 <= m < 1440 && n % 1440 == 0
    ensures (m + n) % 1440 == m
  {
    DivModUnique(m + n, 1440, n / 1440, m);
  }

  /** A whole number of days of increments brings a valid record back to itself. */
  lemma WholeDaysReturn(d: Dcf77Data, n: nat)
    requires ValidTime(d)
    requires n % 1440 == 0
    ensures IncrementMinutes(d, n) == d
  {
    var e := IncrementMinutes(d, n);
    IncrementMinutesAdvances(d, n);
    IncrementMinutesKeepsDate(d, n);
    MinuteOfDayBound(d);
    ModWholeDays(MinuteOfDay(d), n);
    MinuteOfDayDeterminesTime(d, e);
  }

  // ---------------------------------------------------------------------
  // The frame

  /** The frame is the concatenation of its head, its three parity groups and five zero bits. */
  lemma FrameGroups(d: Dcf77Data)
    ensures ToBits(d)[..21] == FrameHead(d)
    ensures ToBits(d)[21..29] == WithParity(MinuteBits(d))
    ensures ToBits(d)[29..36] == WithParity(HourBits(d))
    ensures ToBits(d)[36..59] == WithParity(DateBits(d))
    ensures ToBits(d)[59..] == Zeros(5)
  {
  }

  /** Bit 0 is 0, bit 20 is 1, and nothing above bit 58 is set, so the frame is below 2^59. */
  lemma FrameMarkers(d: Dcf77Data)
    ensures !ToBits(d)[0] && ToBits(d)[20]
    ensures forall i :: 59 <= i < 64 ==> !ToBits(d)[i]
    ensures Value(ToBits(d)) < Pow2(59)
  {
    var f := ToBits(d);
    FrameGroups(d);
    assert f[0] == f[..21][0] && f[20] == f[..21][20];
    assert f == f[..59] + Zeros(5);
    ValueWithZeros(f[..59], 5);
    ValueBound(f[..59]);
  }

  /** The flags occupy bits 15..19 in declaration order. */
  lemma FrameFlags(d: Dcf77Data)
    ensures ToBits(d)[15] == d.abnormalOperation && ToBits(d)[16] == d.summerAnnouncement
    ensures ToBits(d)[17] == d.cest && ToBits(d)[18] == d.cet
    ensures ToBits(d)[19] == d.leapSecondAnnouncement
  {
    var f := ToBits(d);
    FrameGroups(d);
    assert f[15..20] == f[..21][15..20] == FlagBits(d);
  }

  /** Bits 1..14 carry the civil warning field modulo 2^14, lowest bit first. */
  lemma FrameCivilWarning(d: Dcf77Data)
    ensures Value(ToBits(d)[1..15]) == d.civilWarning % 0x4000
  {
    var f := ToBits(d);
    FrameGroups(d);
    assert f[1..15] == f[..21][1..15] == BitsOf(d.civilWarning, 14);
    ValueOfBitsOf(d.civilWarning, 14);
    Pow2Values();
  }

  /** Only the low 14 bits of the civil warning field reach the frame. */
  lemma CivilWarningLow14Bits(d: Dcf77Data)
    ensures ToBits(d) == ToBits(d.(civilWarning := d.civilWarning % 0x4000))
  {
    var x := d.civilWarning;
    ValueOfBitsOf(x, 14);
    Pow2Values();
    BitsOfValue(BitsOf(x, 14));
    assert BitsOf(x, 14) == BitsOf(x % 0x4000, 14);
    assert FrameHead(d) == FrameHead(d.(civilWarning := x % 0x4000));
  }

  /** Each of the three parity groups has an even population count. */
  lemma FrameParity(d: Dcf77Data)
    ensures Count(ToBits(d)[21..29]) % 2 == 0
    ensures Count(ToBits(d)[29..36]) % 2 == 0
    ensures Count(ToBits(d)[36..59]) % 2 == 0
  {
    FrameGroups(d);
  }

  lemma FieldOfPrefix(s: seq<bool>, t: seq<bool>, lo: nat, hi: nat)
    requires lo <= hi <= |s| && hi - lo <= 8
    ensures Field(s + t, lo, hi) == Field(s, lo, hi)
  {
    assert (s + t)[lo..hi] == s[lo..hi];
  }

  lemma FieldOfBits(a: seq<bool>, x: nat, width: nat, b: seq<bool>)
    requires width <= 8 && x < Pow2(width)
    ensures Field(a + BitsOf(x, width) + b, |a|, |a| + width) == x
  {
    assert (a + BitsOf(x, width) + b)[|a|..|a| + width] == BitsOf(x, width);
    RoundTripInWidth(x, width);
  }

  lemma MinuteGroupRoundTrip(d: Dcf77Data)
    requires d.minuteOnes < 16 && d.minuteTens < 8
    ensures Field(WithParity(MinuteBits(d)), 0, 4) == d.minuteOnes
    ensures Field(WithParity(MinuteBits(d)), 4, 7) == d.minuteTens
  {
    Pow2Values();
    var m := MinuteBits(d);
    FieldOfPrefix(m, [Parity(m)], 0, 4);
    FieldOfPrefix(m, [Parity(m)], 4, 7);
    FieldOfBits([], d.minuteOnes, 4, BitsOf(d.minuteTens, 3));
    FieldOfBits(BitsOf(d.minuteOnes, 4), d.minuteTens, 3, []);
    assert [] + BitsOf(d.minuteOnes, 4) + BitsOf(d.minuteTens, 3) == m;
    assert BitsOf(d.minuteOnes, 4) + BitsOf(d.minuteTens, 3) + [] == m;
  }

  lemma HourGroupRoundTrip(d: Dcf77Data)
    requires d.hourOnes < 16 && d.hourTens < 4
    ensures Field(WithParity(HourBits(d)), 0, 4) == d.hourOnes
    ensures Field(WithParity(HourBits(d)), 4, 6) == d.hourTens
  {
    Pow2Values();
    var h := HourBits(d);
    FieldOfPrefix(h, [Parity(h)], 0, 4);
    FieldOfPrefix(h, [Parity(h)], 4, 6);
    FieldOfBits([], d.hourOnes, 4, BitsOf(d.hourTens, 2));
    FieldOfBits(BitsOf(d.hourOnes, 4), d.hourTens, 2, []);
    assert [] + BitsOf(d.hourOnes, 4) + BitsOf(d.hourTens, 2) == h;
    assert BitsOf(d.hourOnes, 4) + BitsOf(d.hourTens, 2) + [] == h;
  }

  /** A field read inside a piece of a concatenation reads the piece. */
  lemma FieldShift(a: seq<bool>, m: seq<bool>, b: seq<bool>, lo: nat, hi: nat)
    requires lo <= hi <= |m| && hi - lo <= 8
    ensures Field(a + m + b, |a| + lo, |a| + hi) == Field(m, lo, hi)
  {
    assert (a + m + b)[|a| + lo..|a| + hi] == m[lo..hi];
  }

  lemma DayRoundTrip(d: Dcf77Data)
    requires d.dayOfMonthOnes < 16 && d.dayOfMonthTens < 4 && d.dayOfWeek < 8
    ensures Field(DayBits(d), 0, 4) == d.dayOfMonthOnes
    ensures Field(DayBits(d), 4, 6) == d.dayOfMonthTens
    ensures Field(DayBits(d), 6, 9) == d.dayOfWeek
  {
    Pow2Values();
    var ones, tens, weekday := BitsOf(d.dayOfMonthOnes, 4), BitsOf(d.dayOfMonthTens, 2), BitsOf(d.dayOfWeek, 3);
    FieldOfBits([], d.dayOfMonthOnes, 4, tens + weekday);
    assert [] + ones + (tens + weekday) == DayBits(d);
    FieldOfBits(ones, d.dayOfMonthTens, 2, weekday);
    FieldOfBits(ones + tens, d.dayOfWeek, 3, []);
    assert ones + tens + weekday + [] == DayBits(d);
  }

  lemma MonthRoundTrip(d: Dcf77Data)
    requires d.monthOnes < 16
    ensures Field(MonthBits(d), 0, 4) == d.monthOnes
    ensures MonthBits(d)[4] == d.monthTen
  {
    Pow2Values();
    FieldOfBits([], d.monthOnes, 4, [d.monthTen]);
    assert [] + BitsOf(d.monthOnes, 4) + [d.monthTen] == MonthBits(d);
  }

  lemma YearRoundTrip(d: Dcf77Data)
    requires d.yearInCenturyOnes < 16 && d.yearInCenturyTens < 16
    ensures Field(YearBits(d), 0, 4) == d.yearInCenturyOnes
    ensures Field(YearBits(d), 4, 8) == d.yearInCenturyTens
  {
    Pow2Values();
    var ones, tens := BitsOf(d.yearInCenturyOnes, 4), BitsOf(d.yearInCenturyTens, 4);
    FieldOfBits([], d.yearInCenturyOnes, 4, tens);
    assert [] + ones + tens == YearBits(d);
    FieldOfBits(ones, d.yearInCenturyTens, 4, []);
    assert ones + tens + [] == YearBits(d);
  }

  lemma DateFields(d: Dcf77Data)
    requires d.dayOfMonthOnes < 16 && d.dayOfMonthTens < 4 && d.dayOfWeek < 8
    requires d.monthOnes < 16 && d.yearInCenturyOnes < 16 && d.yearInCenturyTens < 16
    ensures Field(DateBits(d), 0, 4) == d.dayOfMonthOnes
    ensures Field(DateBits(d), 4, 6) == d.dayOfMonthTens
    ensures Field(DateBits(d), 6, 9) == d.dayOfWeek
    ensures Field(DateBits(d), 9, 13) == d.monthOnes
    ensures DateBits(d)[13] == d.monthTen
    ensures Field(DateBits(d), 14, 18) == d.yearInCenturyOnes
    ensures Field(DateBits(d), 18, 22) == d.yearInCenturyTens
  {
    var day, month, year := DayBits(d), MonthBits(d), YearBits(d);
    DayRoundTrip(d);
    MonthRoundTrip(d);
    YearRoundTrip(d);
    assert DateBits(d) == [] + day + (month + year);
    FieldShift([], day, month + year, 0, 4);
    FieldShift([], day, month + year, 4, 6);
    FieldShift([], day, month + year, 6, 9);
    FieldShift(day, month, year, 0, 4);
    assert DateBits(d) == (day + month) + year + [];
    FieldShift(day + month, year, [], 0, 4);
    FieldShift(day + month, year, [], 4, 8);
  }

  lemma DateGroupRoundTrip(d: Dcf77Data)
    requires d.dayOfMonthOnes < 16 && d.dayOfMonthTens < 4 && d.dayOfWeek < 8
    requires d.monthOnes < 16 && d.yearInCenturyOnes < 16 && d.yearInCenturyTens < 16
    ensures Field(WithParity(DateBits(d)), 0, 4) == d.dayOfMonthOnes
    ensures Field(WithParity(DateBits(d)), 4, 6) == d.dayOfMonthTens
    ensures Field(WithParity(DateBits(d)), 6, 9) == d.dayOfWeek
    ensures Field(WithParity(DateBits(d)), 9, 13) == d.monthOnes
    ensures WithParity(DateBits(d))[13] == d.monthTen
    ensures Field(WithParity(DateBits(d)), 14, 18) == d.yearInCenturyOnes
    ensures Field(WithParity(DateBits(d)), 18, 22) == d.yearInCenturyTens
  {
    var t, p := DateBits(d), [Parity(DateBits(d))];
    DateFields(d);
    FieldOfPrefix(t, p, 0, 4);
    FieldOfPrefix(t, p, 4, 6);
    FieldOfPrefix(t, p, 6, 9);
    FieldOfPrefix(t, p, 9, 13);
    FieldOfPrefix(t, p, 14, 18);
    FieldOfPrefix(t, p, 18, 22);
  }

  lemma HeadRoundTrip(d: Dcf77Data)
    requires d.civilWarning < 0x4000
    ensures CivilWarningField(FrameHead(d)) == d.civilWarning
    ensures FrameHead(d)[15..20] == FlagBits(d)
    ensures !FrameHead(d)[0] && FrameHead(d)[20]
  {
    Pow2Values();
    assert FrameHead(d)[1..15] == BitsOf(d.civilWarning, 14);
    RoundTripInWidth(d.civilWarning, 14);
  }

  /** A record whose fields fit their bit ranges is read back unchanged from its frame. */
  lemma DecodeToBits(d: Dcf77Data)
    requires InWidth(d)
    ensures Decode(ToBits(d)) == Some(d)
  {
    FrameGroups(d);
    HeadRoundTrip(d);
    MinuteGroupRoundTrip(d);
    HourGroupRoundTrip(d);
    DateGroupRoundTrip(d);
  }

  lemma MinuteGroupInverse(m: seq<bool>)
    requires |m| == 8 && !Parity(m)
    ensures WithParity(BitsOf(Field(m, 0, 4), 4) + BitsOf(Field(m, 4, 7), 3)) == m
  {
    BitsOfValue(m[0..4]);
    BitsOfValue(m[4..7]);
    assert m[..7] == m[0..4] + m[4..7];
    LastBitIsParityOfRest(m);
  }

  lemma HourGroupInverse(h: seq<bool>)
    requires |h| == 7 && !Parity(h)
    ensures WithParity(BitsOf(Field(h, 0, 4), 4) + BitsOf(Field(h, 4, 6), 2)) == h
  {
    BitsOfValue(h[0..4]);
    BitsOfValue(h[4..6]);
    assert h[..6] == h[0..4] + h[4..6];
    LastBitIsParityOfRest(h);
  }

  lemma DateGroupInverse(t: seq<bool>)
    requires |t| == 23 && !Parity(t)
    ensures WithParity((BitsOf(Field(t, 0, 4), 4) + BitsOf(Field(t, 4, 6), 2) + BitsOf(Field(t, 6, 9), 3))
                       + (BitsOf(Field(t, 9, 13), 4) + [t[13]])
                       + (BitsOf(Field(t, 14, 18), 4) + BitsOf(Field(t, 18, 22), 4))) == t
  {
    BitsOfValue(t[0..4]);
    BitsOfValue(t[4..6]);
    BitsOfValue(t[6..9]);
    BitsOfValue(t[9..13]);
    BitsOfValue(t[14..18]);
    BitsOfValue(t[18..22]);
    assert t[..22] == (t[0..4] + t[4..6] + t[6..9]) + (t[9..13] + [t[13]]) + (t[14..18] + t[18..22]);
    LastBitIsParityOfRest(t);
  }

  lemma HeadInverse(head: seq<bool>)
    requires |head| == 21 && !head[0] && head[20]
    ensures [false] + BitsOf(CivilWarningField(head), 14) + head[15..20] + [true] == head
  {
    BitsOfValue(head[1..15]);
    assert head == [head[0]] + head[1..15] + head[15..20] + [head[20]];
  }

  /**
   Conversely, every frame the receiver accepts, with nothing set above
   bit 58, is exactly the frame of the record it decodes to.
   */
  lemma ToBitsDecode(f: Word64)
    requires Decode(f).Some?
    requires forall i :: 59 <= i < 64 ==> !f[i]
    ensures ToBits(Decode(f).value) == f
  {
    var d := Decode(f).value;
    HeadInverse(f[..21]);
    assert FlagBits(d) == f[..21][15..20];
    MinuteGroupInverse(f[21..29]);
    HourGroupInverse(f[29..36]);
    DateGroupInverse(f[36..59]);
    FrameSplit(f);
  }

  /** Cutting a frame at the group boundaries and gluing the pieces back gives the frame. */
  lemma FrameSplit(f: Word64)
    requires forall i :: 59 <= i < 64 ==> !f[i]
    ensures f == f[..21] + f[21..29] + f[29..36] + f[36..59] + Zeros(5)
  {
    var a, b, c := f[..29], f[..36], f[..59];
    assert a == f[..21] + f[21..29];
    assert b == a + f[29..36];
    assert c == b + f[36..59];
    assert f == c + Zeros(5);
  }

  /**
   The frame of the start stamp 10:40, 10.04.90, CEST, group by group from
   bit 0: the head with only the CEST flag (bit 17) and the time marker set,
   minute 40 with its parity bit, hour 10 with its parity bit, the date
   group with its parity bit, and five unused zero bits.
   */
  lemma NewFrame()
    ensures ToBits(New()) ==
      [false] + Zeros(14) + [false, false, true, false, false] + [true]
      + [false, false, false, false, false, false, true, true]
      + [false, false, false, false, true, false, true]
      + [false, false, false, false, true, false, false, true, false] + [false, false, true, false, false]
      + [false, false, false, false, true, false, false, true] + [true]
      + Zeros(5)
  {
    NewGroups();
  }

  lemma NewGroups()
    ensures FrameHead(New()) == [false] + Zeros(14) + [false, false, true, false, false] + [true]
    ensures WithParity(MinuteBits(New())) == [false, false, false, false, false, false, true, true]
    ensures WithParity(HourBits(New())) == [false, false, false, false, true, false, true]
    ensures WithParity(DateBits(New())) ==
      [false, false, false, false, true, false, false, true, false] + [false, false, true, false, false]
      + [false, false, false, false, true, false, false, true] + [true]
  {
    BitsOfZero(14);
    NewTimeBits();
    NewDateBits();
    ParityOfMinute();
    ParityOfHour();
    ParityOfDate();
  }

  lemma NewTimeBits()
    ensures MinuteBits(New()) == [false, false, false, false, false, false, true]
    ensures HourBits(New()) == [false, false, false, false, true, false]
  {
  }

  lemma NewDateBits()
    ensures DateBits(New()) ==
      [false, false, false, false, true, false, false, true, false] + [false, false, true, false, false]
      + [false, false, false, false, true, false, false, true]
  {
    var d := New();
    assert DayBits(d) == [false, false, false, false, true, false, false, true, false];
    assert MonthBits(d) == [false, false, true, false, false];
    assert YearBits(d) == [false, false, false, false, true, false, false, true];
  }

  /** A single set bit after `n` clear ones: the parity of such a run is set. */
  lemma ParityOfRun(n: nat)
    ensures Parity(Zeros(n) + [true])
  {
    ParityConcat(Zeros(n), [true]);
    ParityOfZeros(n);
    assert [true][..0] == [];
  }

  lemma ParityOfMinute()
    ensures Parity([false, false, false, false, false, false, true])
  {
    assert [false, false, false, false, false, false, true] == Zeros(6) + [true];
    ParityOfRun(6);
  }

  lemma ParityOfHour()
    ensures Parity([false, false, false, false, true, false])
  {
    assert [false, false, false, false, true, false] == (Zeros(4) + [true]) + Zeros(1);
    ParityOfRun(4);
    ParityConcat(Zeros(4) + [true], Zeros(1));
    ParityOfZeros(1);
  }

  lemma ParityOfDate()
    ensures Parity([false, false, false, false, true, false, false, true, false] + [false, false, true, false, false]
                   + [false, false, false, false, true, false, false, true])
  {
    var a, b, c, e, f := Zeros(4) + [true], Zeros(2) + [true], Zeros(3) + [true], Zeros(6) + [true], Zeros(2) + [true];
    assert [false, false, false, false, true, false, false, true, false] + [false, false, true, false, false]
           + [false, false, false, false, true, false, false, true] == a + b + c + e + f;
    ParityOfRun(4);
    ParityOfRun(2);
    ParityOfRun(3);
    ParityOfRun(6);
    ParityConcat(a, b);
    ParityConcat(a + b, c);
    ParityConcat(a + b + c, e);
    ParityConcat(a + b + c + e, f);
  }
}

=== FILE: foreground.dfy ===
/**
 The foreground loop of the firmware: it waits for the update flag, clears
 it, and renders the second and the time record as the 17-character line
 `DD.MM.YY HH:MM:SS` for the display.
 */
module Foreground {
  import opened Bits
  import opened Wrappers
  import opened Dcf77
  import opened Scheduler
  import opened I2cController
  import opened I2cDisplay

  const Dot: u8 := 0x2E
  const Space: u8 := 0x20
  const Colon: u8 := 0x3A
  const Zero: u8 := 0x30
  const One: u8 := 0x31

  /** The line the rendering starts from, "xx.xx.xx xx:xx:xx". */
  const Template: seq<u8> :=
    [0x78, 0x78, Dot, 0x78, 0x78, Dot, 0x78, 0x78, Space, 0x78, 0x78, Colon, 0x78, 0x78, Colon, 0x78, 0x78]

  /** `b'0' + x` on bytes, wrapping at 256 as release builds do. */
  function Digit(x: u8): (r: u8)
    ensures x < 10 ==> Zero <= r <= Zero + 9 && r - Zero == x
  {
    (Zero + x) % 0x100
  }

  predicate IsDigit(c: u8)
  {
    Zero <= c <= Zero + 9
  }

  /** The positions of the template that are overwritten. */
  predicate IsDigitSlot(i: int)
  {
    i in {0, 1, 3, 4, 6, 7, 9, 10, 12, 13, 15, 16}
  }

  /**
   The text sent to the display for second `second` of the time in `d`: the
   template with its twelve digit slots overwritten, day, month, year, hour,
   minute and second, tens first.
   */
  function Render(second: u8, d: Dcf77Data): (r: seq<u8>)
    ensures |r| == 17
    ensures forall i :: 0 <= i < 17 && !IsDigitSlot(i) ==> r[i] == Template[i]
    ensures r[3] == (if d.monthTen then One else Zero)
    ensures r[15] == Digit(second / 10) && r[16] == Digit(second % 10)
  {
    Template
      [0 := Digit(d.dayOfMonthTens)]
      [1 := Digit(d.dayOfMonthOnes)]
      [3 := if d.monthTen then One else Zero]
      [4 := Digit(d.monthOnes)]
      [6 := Digit(d.yearInCenturyTens)]
      [7 := Digit(d.yearInCenturyOnes)]
      [9 := Digit(d.hourTens)]
      [10 := Digit(d.hourOnes)]
      [12 := Digit(d.minuteTens)]
      [13 := Digit(d.minuteOnes)]
      [15 := Digit(second / 10)]
      [16 := Digit(second % 10)]
  }

  /** For a valid record and a second below 60, every digit slot holds an ASCII digit. */
  lemma RenderDigits(second: u8, d: Dcf77Data)
    requires Valid(d) && second < 60
    ensures forall i :: 0 <= i < 17 && IsDigitSlot(i) ==> IsDigit(Render(second, d)[i])
  {
  }

  // ---------------------------------------------------------------------
  // Reading the line back

  /** Date and time as a reader of the display sees them. */
  datatype Stamp = Stamp(day: int, month: int, year: int, hour: int, minute: int, second: int)

  function DigitValue(c: u8): int
  {
    c - Zero
  }

  function TwoDigits(text: seq<u8>, i: nat): int
    requires i + 1 < |text|
  {
    10 * DigitValue(text[i]) + DigitValue(text[i + 1])
  }

  /**
   Reads a line in the layout `DD.MM.YY HH:MM:SS`: the separators must be in
   place and every digit slot must hold an ASCII digit.
   */
  function Parse(text: seq<u8>): (r: Option<Stamp>)
    ensures r.Some? ==> |text| == 17
    ensures r.Some? ==> 0 <= r.value.second < 100 && 0 <= r.value.minute < 100 && 0 <= r.value.hour < 100
  {
    if |text| != 17 then None
    else if exists i :: 0 <= i < 17 && !IsDigitSlot(i) && text[i] != Template[i] then None
    else if exists i :: 0 <= i < 17 && IsDigitSlot(i) && !IsDigit(text[i]) then None
    else
      Some(Stamp(TwoDigits(text, 0), TwoDigits(text, 3), TwoDigits(text, 6),
                 TwoDigits(text, 9), TwoDigits(text, 12), TwoDigits(text, 15)))
  }

  /** The rendered line reads back as the record's date and time and the second. */
  lemma ParseRender(second: u8, d: Dcf77Data)
    requires Valid(d) && second < 60
    ensures Parse(Render(second, d)) ==
      Some(Stamp(DayOfMonth(d), Month(d), Year(d), Hour(d), Minute(d), second))
  {
    RenderDigits(second, d);
  }

  // ---------------------------------------------------------------------
  // The loop

  /**
   One pass of the foreground loop over the shared state: while the flag is
   clear nothing happens; once it is set it is cleared, and the line for
   the current second and time is produced.
   */
  function Poll(s: State): (r: (State, Option<seq<u8>>))
    ensures !r.0.updateTime
    ensures r.0 == s.(updateTime := false)
    ensures r.1.Some? <==> s.updateTime
    ensures r.1.Some? ==> r.1.value == Render(s.second, s.data)
  {
    if !s.updateTime then (s, None)
    else
      var cleared := s.(updateTime := false);
      (cleared, Some(Render(cleared.second, cleared.data)))
  }

  /**
   After every second boundary the foreground redraws, and what it draws
   is the second just started and the current time; calls between
   boundaries leave a cleared flag cleared.
   */
  lemma BoundaryTriggersRedraw(s: State)
    requires Inv(s)
    ensures RtcTick(s).duty.Some? ==>
      Poll(RtcTick(s).next).1 == Some(Render(RtcTick(s).next.second, RtcTick(s).next.data))
    ensures RtcTick(s).duty.None? && !s.updateTime ==> Poll(RtcTick(s).next).1.None?
  {
  }

  // ---------------------------------------------------------------------
  // The display

  /** The display at bus address 0x27, with its backlight on. */
  const Lcd: Display := Display(0x27, true)

  /** "DCF77 Faker", shown on the first line at start-up. */
  const Banner: seq<bv8> := [0x44, 0x43, 0x46, 0x37, 0x37, 0x20, 0x46, 0x61, 0x6B, 0x65, 0x72]

  /** Where the time line starts: the third line of a 20-column display. */
  const TimeLocation: bv8 := 20

  /** A line of bytes as the bus sees them. */
  function Octets(text: seq<u8>): (r: seq<bv8>)
    ensures |r| == |text|
  {
    seq(|text|, i requires 0 <= i < |text| => text[i] as bv8)
  }

  /**
   The display traffic at start-up: set-up, cursor home, banner. Each of the
   three runs whatever became of the one before.
   */
  function StartUp(bus: nat -> Outcome<I2cError>): seq<bv8>
  {
    var setup := BasicSetup(Lcd, bus, 0);
    var home := SetLocation(Lcd, 0, bus, |setup.sent|);
    var banner := WriteText(Lcd, Banner, bus, |setup.sent| + |home.sent|);
    setup.sent + home.sent + banner.sent
  }

  /** The display traffic of one redraw, from send `start` on; a failure of the first part does not stop the second. */
  function ShowTime(text: seq<bv8>, bus: nat -> Outcome<I2cError>, start: nat): seq<bv8>
  {
    var move := SetLocation(Lcd, TimeLocation, bus, start);
    move.sent + WriteText(Lcd, text, bus, start + |move.sent|).sent
  }

  /** A bus on which every send succeeds. */
  ghost predicate AllSendsPass(bus: nat -> Outcome<I2cError>)
  {
    forall k :: bus(k).Pass?
  }

  /** With every send succeeding, start-up sends the set-up sequence, the home command and the banner in full. */
  lemma StartUpWhenAllSendsPass(bus: nat -> Outcome<I2cError>)
    requires AllSendsPass(bus)
    ensures StartUp(bus) == AllFrames(Lcd, SetupSteps) + ByteFrames(Lcd, 0x80, false) + AllFrames(Lcd, TextSteps(Banner))
  {
    var setup := BasicSetup(Lcd, bus, 0);
    NoFailureAmongSends(bus, 0, |setup.sent|);
    var home := SetLocation(Lcd, 0, bus, |setup.sent|);
    NoFailureAmongSends(bus, |setup.sent|, |home.sent|);
    var at := |setup.sent| + |home.sent|;
    NoFailureAmongSends(bus, at, |WriteText(Lcd, Banner, bus, at).sent|);
  }

  /** On a bus where every send succeeds, no run of sends has a first failure. */
  lemma NoFailureAmongSends(bus: nat -> Outcome<I2cError>, start: nat, n: nat)
    requires AllSendsPass(bus)
    ensures FirstFailure(bus, start, n).Pass?
  {
    FirstFailurePassIff(bus, start, n);
  }

  /** A byte's frames end with E low, so what follows them latches on its own. */
  lemma ByteThenLatches(d: Display, byte: bv8, rs: bool, rest: seq<bv8>)
    ensures Latched(ByteFrames(d, byte, rs) + rest) == [Latch(byte >> 4, rs), Latch(byte & 0xF, rs)] + Latched(rest)
  {
    ByteLatches(d, byte, rs);
    NibbleFramesShape(d, byte & 0xF, rs);
    LatchedAppend(ByteFrames(d, byte, rs), rest);
  }

  lemma AssemblePair(x: Latch, y: Latch, rest: seq<Latch>)
    ensures Assemble([x, y] + rest) == [((x.nibble << 4) | (y.nibble & 0xF), y.rs)] + Assemble(rest)
  {
    assert ([x, y] + rest)[2..] == rest;
  }

  /**
   When every send succeeds, a redraw reaches the display controller as the command
   that moves the cursor to the time line, followed by the line's bytes as
   data.
   */
  lemma ShowTimeDelivers(text: seq<bv8>, bus: nat -> Outcome<I2cError>, start: nat)
    requires AllSendsPass(bus)
    ensures Assemble(Latched(ShowTime(text, bus, start))) ==
      [(0x80 | TimeLocation, false)] + seq(|text|, i requires 0 <= i < |text| => (text[i], true))
  {
    var move := SetLocation(Lcd, TimeLocation, bus, start);
    NoFailureAmongSends(bus, start, |move.sent|);
    var write := WriteText(Lcd, text, bus, start + |move.sent|);
    NoFailureAmongSends(bus, start + |move.sent|, |write.sent|);
    WriteTextDelivers(Lcd, text, bus, start + |move.sent|);
    ByteThenLatches(Lcd, 0x94, false, write.sent);
    AssemblePair(Latch(0x9, false), Latch(0x4, false), Latched(write.sent));
  }

  /**
   Every second the display ends up showing the time being broadcast: after
   a boundary, the foreground's redraw delivers a line that reads back as
   the current date, time and second.
   */
  lemma RedrawShowsBroadcastTime(s: State, bus: nat -> Outcome<I2cError>, start: nat)
    requires s.updateTime && Valid(s.data) && s.second < 60 && AllSendsPass(bus)
    ensures Poll(s).1.Some?
    ensures var line := Poll(s).1.value;
      && Parse(line) == Some(Stamp(DayOfMonth(s.data), Month(s.data), Year(s.data), Hour(s.data), Minute(s.data), s.second))
      && Assemble(Latched(ShowTime(Octets(line), bus, start))) ==
           [(0x80 | TimeLocation, false)] + seq(|line|, i requires 0 <= i < |line| => (Octets(line)[i], true))
  {
    ParseRender(s.second, s.data);
    ShowTimeDelivers(Octets(Poll(s).1.value), bus, start);
  }
}

=== FILE: i2c_controller.dfy ===
/**
 The write path of the SERCOM I2C controller.

 The bus hardware is replaced by an oracle: status snapshot `k` is what the
 controller's STATUS register shows at the `k`-th status check of a
 transfer (check 0 follows the address byte, checks 1 to n follow the n
 data bytes, check n + 1 follows STOP). A transfer is described by the
 register writes it performs, in order, and the result it returns.
 */
module I2cController {
  import opened Bits
  import opened Wrappers
  import opened Init

  /** Bus speed in bits per second. */
  const I2cSpeedHz: u32 := 100_000

  /** `usize::MAX` on the 32-bit target; the index reported for the address byte. */
  const UsizeMax: nat := 0xFFFF_FFFF

  /** The worst-case SCL rise time the baud computation allows for, in nanoseconds. */
  const RiseTimeNs: nat := 13

  /**
   The BAUD register value: BAUD = (f_core / f_SCL - f_core * T_rise - 10) / 2,
   all in `u32` arithmetic, then cast to `u8`. None where the `u32`
   arithmetic would divide by zero, overflow in the product or go below
   zero in a subtraction.
   */
  function BaudDivisor(coreHz: u32, i2cHz: u32): (r: Option<u8>)
    ensures r.Some? ==> i2cHz > 0
    ensures r.Some? && (coreHz / i2cHz - coreHz * RiseTimeNs / 1_000_000_000 - 10) / 2 < 0x100 ==>
      var rise := coreHz * RiseTimeNs / 1_000_000_000;
      10 + 2 * r.value + rise <= coreHz / i2cHz < 10 + 2 * r.value + rise + 2
  {
    if i2cHz == 0 || coreHz * RiseTimeNs >= 0x1_0000_0000 then None
    else
      var quotient := coreHz / i2cHz;
      var rise := coreHz * RiseTimeNs / 1_000_000_000;
      if quotient < rise || quotient - rise < 10 then None
      else Some(((quotient - rise - 10) / 2) % 0x100)
  }

  /** The SCL frequency a BAUD value gives, f_core / (10 + 2 * BAUD + f_core * T_rise), rise time included. */
  function SclHz(baud: nat): real
  {
    var core := CoreClockSpeedHz as real;
    core / (10.0 + 2.0 * baud as real + core * RiseTimeNs as real / 1_000_000_000.0)
  }

  /**
   On the board (31 MHz core clock, 100 kHz bus) the divisor is 150: the
   rise-time term truncates to 0, nothing overflows and the value fits a
   byte. The formula without the rise-time term gives exactly 100 kHz; with
   the 0.403 cycles of rise time the SCL frequency is just under it, above
   99.8 kHz.
   */
  lemma BoardBaudDivisor()
    ensures CoreClockSpeedHz * RiseTimeNs < 0x1_0000_0000
    ensures CoreClockSpeedHz * RiseTimeNs / 1_000_000_000 == 0
    ensures BaudDivisor(CoreClockSpeedHz, I2cSpeedHz) == Some(150)
    ensures CoreClockSpeedHz / (10 + 2 * 150) == I2cSpeedHz
    ensures 99_800.0 < SclHz(150) < I2cSpeedHz as real
  {
  }

  /** An error that may occur during an I2C transfer. */
  datatype I2cError =
    | ArbitrationLost
    | BusError
      /** `index` is the position of the byte in the data, or `UsizeMax` for the address byte. */
    | NotAcknowledged(byte: bv8, index: nat)
    | InvalidAddress(address: bv8)

  /** The three STATUS flags the controller looks at after each byte. */
  datatype BusStatus = BusStatus(busErr: bool, arbLost: bool, rxNack: bool)

  /** A register write the controller performs. */
  datatype BusOp =
    | WriteAddress(address: bv8)    // ADDR: starts the transfer with the address byte
    | WriteData(byte: bv8)          // DATA: sends one byte
    | IssueStop                     // CTRLB.CMD = STOP
    | ClearStatus(busErr: bool, arbLost: bool)  // STATUS write-one-to-clear

  /** The result of one status check and the STATUS writes it performs. */
  datatype Check = Check(outcome: Outcome<I2cError>, clears: seq<BusOp>)

  /**
   Classifies a status snapshot after `byte` (at `index`) went out. A bus
   error wins over lost arbitration, which wins over a missing
   acknowledgement; the error flags found are cleared. The
   acknowledgement test reads RXNACK exactly as the firmware does: a clear
   RXNACK bit is reported as not acknowledged.
   */
  function CheckBusStatus(st: BusStatus, byte: bv8, index: nat): (c: Check)
    ensures c.outcome == Pass <==> !st.busErr && !st.arbLost && st.rxNack
    ensures c.outcome == Fail(BusError) <==> st.busErr
    ensures c.outcome == Fail(ArbitrationLost) <==> !st.busErr && st.arbLost
    ensures c.outcome == Fail(NotAcknowledged(byte, index)) <==> !st.busErr && !st.arbLost && !st.rxNack
    ensures c.clears == if st.busErr then [ClearStatus(true, true)] else if st.arbLost then [ClearStatus(false, true)] else []
  {
    if st.busErr then Check(Fail(BusError), [ClearStatus(true, true)])
    else if st.arbLost then Check(Fail(ArbitrationLost), [ClearStatus(false, true)])
    else if !st.rxNack then Check(Fail(NotAcknowledged(byte, index)), [])
    else Check(Pass, [])
  }

  /** A status snapshot the controller accepts. */
  predicate Healthy(st: BusStatus)
  {
    !st.busErr && !st.arbLost && st.rxNack
  }

  /** The outcome of a transfer and the register writes it performed, in order. */
  datatype SendResult = SendResult(outcome: Outcome<I2cError>, ops: seq<BusOp>)

  /** The address byte of a write: the 7-bit address shifted up over a 0 R/W bit. */
  function AddressByte(address: bv8): (b: bv8)
    ensures address < 0x80 ==> b & 1 == 0 && b >> 1 == address
  {
    address << 1
  }

  /**
   Sends `data` to the device at `address`: reject an address with the top
   bit set before touching any register; otherwise write the address byte,
   each data byte and STOP, checking the status after each and returning at
   the first error.
   */
  function Send(address: bv8, data: seq<bv8>, hw: nat -> BusStatus): (r: SendResult)
  {
    if address & 0x80 != 0 then SendResult(Fail(InvalidAddress(address)), [])
    else
      var a := AddressByte(address);
      var c := CheckBusStatus(hw(0), a, UsizeMax);
      var head := [WriteAddress(a)] + c.clears;
      if c.outcome.Fail? then SendResult(c.outcome, head)
      else
        var rest := WriteFrom(data, 0, hw);
        SendResult(rest.outcome, head + rest.ops)
  }

  /** The data loop from byte `i` on, then STOP. */
  function WriteFrom(data: seq<bv8>, i: nat, hw: nat -> BusStatus): (r: SendResult)
    requires i <= |data|
    decreases |data| - i
  {
    if i == |data| then
      var c := CheckBusStatus(hw(i + 1), 0x00, i);
      SendResult(c.outcome, [IssueStop] + c.clears)
    else
      var c := CheckBusStatus(hw(i + 1), data[i], i);
      var ops := [WriteData(data[i])] + c.clears;
      if c.outcome.Fail? then SendResult(c.outcome, ops)
      else
        var rest := WriteFrom(data, i + 1, hw);
        SendResult(rest.outcome, ops + rest.ops)
  }

  // ---------------------------------------------------------------------
  // Reference description of a transfer

  /**
   Phase `k` of a transfer of `data` to `address`: 0 is the address byte,
   1 to n the data bytes, n + 1 the STOP condition.
   */
  function PhaseOp(address: bv8, data: seq<bv8>, k: nat): BusOp
  {
    if k == 0 then WriteAddress(AddressByte(address))
    else if k <= |data| then WriteData(data[k - 1])
    else IssueStop
  }

  /** The byte and index an error in phase `k` reports. */
  function PhaseByte(address: bv8, data: seq<bv8>, k: nat): bv8
  {
    if k == 0 then AddressByte(address) else if k <= |data| then data[k - 1] else 0x00
  }

  function PhaseIndex(data: seq<bv8>, k: nat): nat
  {
    if k == 0 then UsizeMax else if k <= |data| then k - 1 else |data|
  }

  /** The first phase in `lo..hi` whose status snapshot is not healthy. */
  function FirstFault(hw: nat -> BusStatus, lo: nat, hi: nat): (r: Option<nat>)
    ensures r.Some? ==> lo <= r.value <= hi && !Healthy(hw(r.value))
    ensures r.Some? ==> forall k :: lo <= k < r.value ==> Healthy(hw(k))
    ensures r.None? ==> forall k :: lo <= k <= hi ==> Healthy(hw(k))
    decreases hi - lo + 1
  {
    if lo > hi then None
    else if !Healthy(hw(lo)) then Some(lo)
    else FirstFault(hw, lo + 1, hi)
  }

  /** The register writes of phases `lo..hi-1`, none of which found an error. */
  function PhaseOps(address: bv8, data: seq<bv8>, lo: nat, hi: nat): (r: seq<BusOp>)
    requires lo <= hi
    ensures |r| == hi - lo
    ensures forall k :: 0 <= k < hi - lo ==> r[k] == PhaseOp(address, data, lo + k)
  {
    seq(hi - lo, k requires 0 <= k => PhaseOp(address, data, lo + k))
  }

  /**
   What a transfer from phase `lo` on does, stated without the loop: every
   phase up to the first faulty one writes its byte, the faulty one also
   clears its flags and ends the transfer with its error.
   */
  function Expected(address: bv8, data: seq<bv8>, hw: nat -> BusStatus, lo: nat): SendResult
    requires lo <= |data| + 1
  {
    match FirstFault(hw, lo, |data| + 1)
    case None =>
      SendResult(Pass, PhaseOps(address, data, lo, |data| + 2))
    case Some(j) =>
      var c := CheckBusStatus(hw(j), PhaseByte(address, data, j), PhaseIndex(data, j));
      SendResult(c.outcome, PhaseOps(address, data, lo, j + 1) + c.clears)
  }

  lemma ExpectedStep(address: bv8, data: seq<bv8>, hw: nat -> BusStatus, lo: nat)
    requires lo <= |data| && Healthy(hw(lo))
    ensures Expected(address, data, hw, lo).outcome == Expected(address, data, hw, lo + 1).outcome
    ensures Expected(address, data, hw, lo).ops == [PhaseOp(address, data, lo)] + Expected(address, data, hw, lo + 1).ops
  {
    var n := |data|;
    assert FirstFault(hw, lo, n + 1) == FirstFault(hw, lo + 1, n + 1);
    match FirstFault(hw, lo + 1, n + 1)
    case None =>
      PhaseOpsCons(address, data, lo, n + 2);
    case Some(j) =>
      PhaseOpsCons(address, data, lo, j + 1);
  }

  /** The writes of phases `lo..hi-1` are phase `lo`'s write followed by the rest. */
  lemma PhaseOpsCons(address: bv8, data: seq<bv8>, lo: nat, hi: nat)
    requires lo < hi
    ensures PhaseOps(address, data, lo, hi) == [PhaseOp(address, data, lo)] + PhaseOps(address, data, lo + 1, hi)
  {
    assert PhaseOps(address, data, lo, hi)[1..] == PhaseOps(address, data, lo + 1, hi);
  }

  lemma {:induction false} WriteFromExpected(address: bv8, data: seq<bv8>, hw: nat -> BusStatus, i: nat)
    requires i <= |data|
    ensures WriteFrom(data, i, hw) == Expected(address, data, hw, i + 1)
    decreases |data| - i
  {
    if i == |data| {
      StopExpected(address, data, hw);
    } else if !Healthy(hw(i + 1)) {
      FaultyByteExpected(address, data, hw, i);
    } else {
      WriteFromExpected(address, data, hw, i + 1);
      ExpectedStep(address, data, hw, i + 1);
    }
  }

  lemma StopExpected(address: bv8, data: seq<bv8>, hw: nat -> BusStatus)
    ensures WriteFrom(data, |data|, hw) == Expected(address, data, hw, |data| + 1)
  {
    var n := |data|;
    assert PhaseOps(address, data, n + 1, n + 2) == [IssueStop];
  }

  lemma FaultyByteExpected(address: bv8, data: seq<bv8>, hw: nat -> BusStatus, i: nat)
    requires i < |data| && !Healthy(hw(i + 1))
    ensures WriteFrom(data, i, hw) == Expected(address, data, hw, i + 1)
  {
    assert PhaseOps(address, data, i + 1, i + 2) == [WriteData(data[i])];
  }

  /** The transfer does exactly what the reference description says. */
  lemma SendExpected(address: bv8, data: seq<bv8>, hw: nat -> BusStatus)
    requires address & 0x80 == 0
    ensures Send(address, data, hw) == Expected(address, data, hw, 0)
  {
    WriteFromExpected(address, data, hw, 0);
    if Healthy(hw(0)) {
      ExpectedStep(address, data, hw, 0);
    } else {
      assert PhaseOps(address, data, 0, 1) == [WriteAddress(AddressByte(address))];
    }
  }

  // ---------------------------------------------------------------------
  // Consequences

  /** An address with the top bit set is refused without any register access. */
  lemma InvalidAddressTouchesNothing(address: bv8, data: seq<bv8>, hw: nat -> BusStatus)
    requires address & 0x80 != 0
    ensures Send(address, data, hw) == SendResult(Fail(InvalidAddress(address)), [])
  {
  }

  /**
   A transfer succeeds exactly when the address is valid and each of its
   2 + |data| status checks finds the bus healthy; it then writes the
   address byte (R/W bit 0), each data byte in order and STOP, and nothing
   else.
   */
  lemma SendSucceeds(address: bv8, data: seq<bv8>, hw: nat -> BusStatus)
    ensures Send(address, data, hw).outcome == Pass <==>
      address & 0x80 == 0 && forall k :: 0 <= k <= |data| + 1 ==> Healthy(hw(k))
    ensures Send(address, data, hw).outcome == Pass ==>
      Send(address, data, hw).ops == [WriteAddress(address << 1)] + seq(|data|, i requires 0 <= i < |data| => WriteData(data[i])) + [IssueStop]
  {
    if address & 0x80 == 0 {
      SendExpected(address, data, hw);
      var n := |data|;
      var r := Send(address, data, hw);
      match FirstFault(hw, 0, n + 1)
      case None =>
        assert r.ops == [WriteAddress(address << 1)] + seq(n, i requires 0 <= i < n => WriteData(data[i])) + [IssueStop];
      case Some(j) =>
        var c := CheckBusStatus(hw(j), PhaseByte(address, data, j), PhaseIndex(data, j));
        assert c.outcome.Fail?;
    }
  }

  /**
   A failing transfer stops at the first faulty status check `j`: the
   writes are those of phases 0 to `j` plus the flag clearing of phase
   `j`, so no later data byte and no STOP after a failure, and the error
   names the byte and index of phase `j`.
   */
  lemma SendStopsAtFirstFault(address: bv8, data: seq<bv8>, hw: nat -> BusStatus, j: nat)
    requires address & 0x80 == 0
    requires j <= |data| + 1 && !Healthy(hw(j))
    requires forall k :: 0 <= k < j ==> Healthy(hw(k))
    ensures Send(address, data, hw) ==
      var c := CheckBusStatus(hw(j), PhaseByte(address, data, j), PhaseIndex(data, j));
      SendResult(c.outcome, PhaseOps(address, data, 0, j + 1) + c.clears)
  {
    SendExpected(address, data, hw);
    FirstFaultIsLeast(hw, 0, |data| + 1, j);
  }

  lemma {:induction false} FirstFaultIsLeast(hw: nat -> BusStatus, lo: nat, hi: nat, j: nat)
    requires lo <= j <= hi && !Healthy(hw(j))
    requires forall k :: lo <= k < j ==> Healthy(hw(k))
    ensures FirstFault(hw, lo, hi) == Some(j)
    decreases j - lo
  {
    if lo < j {
      FirstFaultIsLeast(hw, lo + 1, hi, j);
    }
  }

  /**
   Where a missing acknowledgement is reported: the address byte with
   index `UsizeMax`, a data byte with its position, or STOP with byte 0x00
   and the number of data bytes as index.
   */
  lemma NackLocators(address: bv8, data: seq<bv8>, hw: nat -> BusStatus, j: nat)
    requires address & 0x80 == 0
    requires j <= |data| + 1 && forall k :: 0 <= k < j ==> Healthy(hw(k))
    requires !hw(j).busErr && !hw(j).arbLost && !hw(j).rxNack
    ensures j == 0 ==> Send(address, data, hw).outcome == Fail(NotAcknowledged(address << 1, UsizeMax))
    ensures 0 < j <= |data| ==> Send(address, data, hw).outcome == Fail(NotAcknowledged(data[j - 1], j - 1))
    ensures j == |data| + 1 ==> Send(address, data, hw).outcome == Fail(NotAcknowledged(0x00, |data|))
  {
    SendStopsAtFirstFault(address, data, hw, j);
  }
}

=== FILE: i2c_display.dfy ===
/**
 An HD44780 character display driven in 4-bit mode through a PCF8574 I2C
 port expander. Expander pins 7 to 4 carry D7 to D4, pin 3 the backlight,
 pin 2 the E strobe, pin 1 R/W and pin 0 RS.

 Every expander update is one I2C `send` of a single byte to the display's
 address. The outcome of the `k`-th send is taken from an oracle `bus`;
 an operation starting at send number `start` is described by the bytes it
 hands to `send`, in order, and the result it returns. The delays between
 sends only matter for timing and are left out.
 */
module I2cDisplay {
  import opened Wrappers
  import opened I2cController

  /** The display's bus address and whether its backlight should be on. */
  datatype Display = Display(address: bv8, wantsBacklight: bool)

  const BacklightBit: bv8 := 0x08
  const EBit: bv8 := 0x04
  const RwBit: bv8 := 0x02
  const RsBit: bv8 := 0x01

  /** The result returned, the bus address every send went to, and the bytes handed to `send`, in order. */
  datatype Transfer = Transfer(outcome: Outcome<I2cError>, to: bv8, sent: seq<bv8>)

  /** The first failure among sends `start` to `start + n - 1`, or `Pass` if there is none. */
  function FirstFailure(bus: nat -> Outcome<I2cError>, start: nat, n: nat): Outcome<I2cError>
    decreases n
  {
    if n == 0 then Pass
    else if bus(start).Fail? then bus(start)
    else FirstFailure(bus, start + 1, n - 1)
  }

  /** No failure is reported exactly when every one of the `n` sends succeeded. */
  lemma {:induction false} FirstFailurePassIff(bus: nat -> Outcome<I2cError>, start: nat, n: nat)
    ensures FirstFailure(bus, start, n).Pass? <==> forall k :: start <= k < start + n ==> bus(k).Pass?
    decreases n
  {
    if n > 0 {
      FirstFailurePassIff(bus, start + 1, n - 1);
    }
  }

  lemma {:induction false} FirstFailureAppend(bus: nat -> Outcome<I2cError>, start: nat, m: nat, n: nat)
    ensures FirstFailure(bus, start, m + n) ==
      if FirstFailure(bus, start, m).Fail? then FirstFailure(bus, start, m) else FirstFailure(bus, start + m, n)
    decreases m
  {
    if m > 0 && bus(start).Pass? {
      FirstFailureAppend(bus, start + 1, m - 1, n);
    }
  }

  /** `s` begins with `p`. */
  predicate IsPrefix<T(==)>(p: seq<T>, s: seq<T>)
  {
    |p| <= |s| && s[..|p|] == p
  }

  /**
   Sends `frames` one by one to `address`, each as its own one-byte
   transfer, stopping at the first one that fails and returning its error.
   */
  function SendFrames(address: bv8, frames: seq<bv8>, bus: nat -> Outcome<I2cError>, start: nat): (r: Transfer)
    ensures r.to == address
    ensures IsPrefix(r.sent, frames)
    ensures r.outcome == FirstFailure(bus, start, |r.sent|)
    ensures r.outcome.Pass? ==> r.sent == frames
    ensures r.outcome.Fail? ==> |r.sent| > 0 && bus(start + |r.sent| - 1) == r.outcome
  {
    var (outcome, sent) := SendEach(frames, bus, start);
    Transfer(outcome, address, sent)
  }

  /** The outcome and the frames handed to `send` by `SendFrames`, whatever the address. */
  function SendEach(frames: seq<bv8>, bus: nat -> Outcome<I2cError>, start: nat): (r: (Outcome<I2cError>, seq<bv8>))
    ensures IsPrefix(r.1, frames)
    ensures r.0 == FirstFailure(bus, start, |r.1|)
    ensures r.0.Pass? ==> r.1 == frames
    ensures r.0.Fail? ==> |r.1| > 0 && bus(start + |r.1| - 1) == r.0
    decreases |frames|
  {
    if |frames| == 0 then (Pass, [])
    else if bus(start).Fail? then (bus(start), [frames[0]])
    else
      var rest := SendEach(frames[1..], bus, start + 1);
      PrefixCons(frames, rest.1);
      (rest.0, [frames[0]] + rest.1)
  }

  /** Putting back the first element keeps a prefix of the rest a prefix of the whole. */
  lemma PrefixCons<T>(s: seq<T>, p: seq<T>)
    requires |s| > 0 && IsPrefix(p, s[1..])
    ensures IsPrefix([s[0]] + p, s)
    ensures p == s[1..] ==> [s[0]] + p == s
  {
    assert ([s[0]] + p)[1..] == p;
  }

  // ---------------------------------------------------------------------
  // Nibbles and bytes

  /** The expander byte for a nibble with E low: data on pins 7..4, backlight, R/W low, RS. */
  function NibbleByte(d: Display, nibble: bv8, rs: bool): bv8
  {
    (nibble << 4) | (if d.wantsBacklight then BacklightBit else 0) | (if rs then RsBit else 0)
  }

  /** E low, E high, E low, with everything else held. */
  function NibbleFrames(d: Display, nibble: bv8, rs: bool): (r: seq<bv8>)
    ensures |r| == 3
  {
    var low := NibbleByte(d, nibble, rs);
    var high := low | EBit;
    [low, high, high & 0xFB]
  }

  /**
   The three frames of a nibble differ only in E, which pulses high in the
   middle one; all three carry the nibble on the data pins, the backlight
   setting, R/W low (write) and the register select.
   */
  lemma NibbleFramesShape(d: Display, nibble: bv8, rs: bool)
    ensures var r := NibbleFrames(d, nibble, rs);
      && r[0] & EBit == 0 && r[1] == r[0] | EBit && r[2] == r[0]
      && forall i :: 0 <= i < 3 ==>
        && r[i] >> 4 == nibble & 0xF
        && r[i] & BacklightBit == (if d.wantsBacklight then BacklightBit else 0)
        && r[i] & RwBit == 0
        && r[i] & RsBit == (if rs then RsBit else 0)
  {
  }

  /** Sends a nibble: three expander updates, stopping at the first failing one. */
  function TransmitNibble(d: Display, nibble: bv8, rs: bool, bus: nat -> Outcome<I2cError>, start: nat): (r: Transfer)
    ensures r.to == d.address
    ensures IsPrefix(r.sent, NibbleFrames(d, nibble, rs))
    ensures r.outcome == FirstFailure(bus, start, |r.sent|)
    ensures r.outcome.Pass? ==> r.sent == NibbleFrames(d, nibble, rs)
    ensures r.outcome.Fail? ==> |r.sent| > 0 && bus(start + |r.sent| - 1) == r.outcome
  {
    SendFrames(d.address, NibbleFrames(d, nibble, rs), bus, start)
  }

  /** The frames of a byte whose sends all succeed: upper nibble, then lower nibble. */
  function ByteFrames(d: Display, byte: bv8, rs: bool): seq<bv8>
  {
    NibbleFrames(d, byte >> 4, rs) + NibbleFrames(d, byte & 0xF, rs)
  }

  /**
   Sends a byte as its upper and then its lower nibble. Both nibbles are
   always attempted; the result is the upper nibble's error if it had one,
   and the lower nibble's result otherwise.
   */
  function TransmitByte(d: Display, byte: bv8, rs: bool, bus: nat -> Outcome<I2cError>, start: nat): (r: Transfer)
    ensures r.to == d.address
    ensures r.outcome == FirstFailure(bus, start, |r.sent|)
    ensures r.outcome.Pass? ==> r.sent == ByteFrames(d, byte, rs)
  {
    var upper := TransmitNibble(d, byte >> 4, rs, bus, start);
    var lower := TransmitNibble(d, byte & 0xF, rs, bus, start + |upper.sent|);
    FirstFailureAppend(bus, start, |upper.sent|, |lower.sent|);
    Transfer(if upper.outcome.Fail? then upper.outcome else lower.outcome, upper.to, upper.sent + lower.sent)
  }

  /** Both nibbles are attempted whatever happens to the first. */
  lemma TransmitByteSendsBothNibbles(d: Display, byte: bv8, rs: bool, bus: nat -> Outcome<I2cError>, start: nat)
    ensures var upper := TransmitNibble(d, byte >> 4, rs, bus, start);
      TransmitByte(d, byte, rs, bus, start).sent
        == upper.sent + TransmitNibble(d, byte & 0xF, rs, bus, start + |upper.sent|).sent
    ensures |TransmitByte(d, byte, rs, bus, start).sent| >= 2
  {
  }

  /**
   The byte transmission as the firmware writes it, combining the two
   nibble results with `Result::or`: an `Ok` upper result wins outright,
   otherwise the lower result is returned.
   */
  function TransmitByteAsWritten(d: Display, byte: bv8, rs: bool, bus: nat -> Outcome<I2cError>, start: nat): (r: Transfer)
    ensures r.to == d.address
    ensures 0 < |r.sent| <= |ByteFrames(d, byte, rs)|
    ensures r.outcome.Fail? ==> FirstFailure(bus, start, |r.sent|).Fail?
    ensures FirstFailure(bus, start, |r.sent|).Pass? ==> r.outcome.Pass? && r.sent == ByteFrames(d, byte, rs)
  {
    var upper := TransmitNibble(d, byte >> 4, rs, bus, start);
    var lower := TransmitNibble(d, byte & 0xF, rs, bus, start + |upper.sent|);
    FirstFailureAppend(bus, start, |upper.sent|, |lower.sent|);
    Transfer(if upper.outcome.Pass? then Pass else lower.outcome, upper.to, upper.sent + lower.sent)
  }

  /**
   The two versions send the same frames and differ only in the result:
   they differ whenever the upper nibble fails with an outcome other than
   the lower one's, or only the lower nibble fails.
   */
  lemma AsWrittenDiffersOnlyInResult(d: Display, byte: bv8, rs: bool, bus: nat -> Outcome<I2cError>, start: nat)
    ensures TransmitByteAsWritten(d, byte, rs, bus, start).sent == TransmitByte(d, byte, rs, bus, start).sent
    ensures var upper := TransmitNibble(d, byte >> 4, rs, bus, start);
      var lower := TransmitNibble(d, byte & 0xF, rs, bus, start + |upper.sent|);
      && (upper.outcome.Fail? ==> TransmitByteAsWritten(d, byte, rs, bus, start).outcome == lower.outcome)
      && (upper.outcome.Fail? ==> TransmitByte(d, byte, rs, bus, start).outcome == upper.outcome)
      && (upper.outcome.Pass? ==> TransmitByteAsWritten(d, byte, rs, bus, start).outcome == Pass)
      && (upper.outcome.Pass? ==> TransmitByte(d, byte, rs, bus, start).outcome == lower.outcome)
  {
  }

  /** A bus on which only send number `k` fails. */
  function FailsOnlyAt(k: nat): nat -> Outcome<I2cError>
  {
    n => if n == k then Fail(BusError) else Pass
  }

  /**
   As written, a failure of either nibble can be lost: when only the first
   send of the lower nibble fails, or only the first send of the upper
   nibble, the byte still reports success. The combination that reports
   the upper error, else the lower result, reports both.
   */
  lemma TransmitByteAsWrittenLosesErrors(d: Display, byte: bv8, rs: bool)
    ensures TransmitByteAsWritten(d, byte, rs, FailsOnlyAt(3), 0).outcome == Pass
    ensures TransmitByteAsWritten(d, byte, rs, FailsOnlyAt(3), 0).sent[3] == NibbleFrames(d, byte & 0xF, rs)[0]
    ensures TransmitByteAsWritten(d, byte, rs, FailsOnlyAt(0), 0).outcome == Pass
    ensures |TransmitByteAsWritten(d, byte, rs, FailsOnlyAt(0), 0).sent| == 4
    ensures TransmitByte(d, byte, rs, FailsOnlyAt(3), 0).outcome == Fail(BusError)
    ensures TransmitByte(d, byte, rs, FailsOnlyAt(0), 0).outcome == Fail(BusError)
  {
    var bus3, bus0 := FailsOnlyAt(3), FailsOnlyAt(0);
    assert TransmitNibble(d, byte >> 4, rs, bus3, 0).sent == NibbleFrames(d, byte >> 4, rs);
    assert TransmitNibble(d, byte >> 4, rs, bus0, 0).sent == NibbleFrames(d, byte >> 4, rs)[..1];
    assert TransmitNibble(d, byte & 0xF, rs, bus0, 1).sent == NibbleFrames(d, byte & 0xF, rs);
  }

  /** A byte reports success exactly when every send it made succeeded. */
  lemma TransmitBytePassIff(d: Display, byte: bv8, rs: bool, bus: nat -> Outcome<I2cError>, start: nat)
    ensures TransmitByte(d, byte, rs, bus, start).outcome.Pass? <==>
      forall k :: start <= k < start + |TransmitByte(d, byte, rs, bus, start).sent| ==> bus(k).Pass?
  {
    FirstFailurePassIff(bus, start, |TransmitByte(d, byte, rs, bus, start).sent|);
  }

  // ---------------------------------------------------------------------
  // Command sequences

  /** One unit of work: a lone nibble or a whole byte. */
  datatype Step = Nibble(nibble: bv8, rs: bool) | Byte(byte: bv8, rs: bool)

  /**
   One step as the firmware sends it. Its result is `Ok` whenever all its
   sends succeeded, and an error it returns is always a real one; a byte
   can still hide a failed send behind an `Ok`.
   */
  function TransmitStep(d: Display, step: Step, bus: nat -> Outcome<I2cError>, start: nat): (r: Transfer)
    ensures r.to == d.address
    ensures 0 < |r.sent| <= |StepFrames(d, step)|
    ensures r.outcome.Fail? ==> FirstFailure(bus, start, |r.sent|).Fail?
    ensures FirstFailure(bus, start, |r.sent|).Pass? ==> r.outcome.Pass? && r.sent == StepFrames(d, step)
  {
    match step
    case Nibble(n, rs) => TransmitNibble(d, n, rs, bus, start)
    case Byte(b, rs) => TransmitByteAsWritten(d, b, rs, bus, start)
  }

  /** One step with the corrected byte combination: its result is its first failed send. */
  function TransmitStepCorrected(d: Display, step: Step, bus: nat -> Outcome<I2cError>, start: nat): (r: Transfer)
    ensures r.to == d.address
    ensures 0 < |r.sent| <= |StepFrames(d, step)|
    ensures r.outcome == FirstFailure(bus, start, |r.sent|)
    ensures r.outcome.Pass? ==> r.sent == StepFrames(d, step)
  {
    match step
    case Nibble(n, rs) => TransmitNibble(d, n, rs, bus, start)
    case Byte(b, rs) => TransmitByte(d, b, rs, bus, start)
  }

  /** Where the corrected step succeeds, the step as written does exactly the same. */
  lemma StepAgrees(d: Display, step: Step, bus: nat -> Outcome<I2cError>, start: nat)
    requires TransmitStepCorrected(d, step, bus, start).outcome.Pass?
    ensures TransmitStep(d, step, bus, start) == TransmitStepCorrected(d, step, bus, start)
  {
    if step.Byte? {
      AsWrittenDiffersOnlyInResult(d, step.byte, step.rs, bus, start);
    }
  }

  /** The frames of a step whose sends all succeed. */
  function StepFrames(d: Display, step: Step): seq<bv8>
  {
    match step
    case Nibble(n, rs) => NibbleFrames(d, n, rs)
    case Byte(b, rs) => ByteFrames(d, b, rs)
  }

  /** The frames of steps `i` up to (not including) `j`, all successful. */
  function FramesBetween(d: Display, steps: seq<Step>, i: nat, j: nat): seq<bv8>
    requires i <= j <= |steps|
    decreases j - i
  {
    if i == j then [] else StepFrames(d, steps[i]) + FramesBetween(d, steps, i + 1, j)
  }

  /** The frames of every step, all successful. */
  function AllFrames(d: Display, steps: seq<Step>): seq<bv8>
  {
    FramesBetween(d, steps, 0, |steps|)
  }

  /**
   Runs steps `i` onwards, in order, as the firmware does with `?` after
   each step: it gives up after the first step that returns an error.
   */
  function RunFrom(d: Display, steps: seq<Step>, i: nat, bus: nat -> Outcome<I2cError>, start: nat): (r: Transfer)
    ensures r.to == d.address
    requires i <= |steps|
    ensures r.outcome.Fail? ==> FirstFailure(bus, start, |r.sent|).Fail?
    ensures FirstFailure(bus, start, |r.sent|).Pass? ==> r.outcome.Pass? && r.sent == FramesBetween(d, steps, i, |steps|)
    decreases |steps| - i
  {
    if i == |steps| then Transfer(Pass, d.address, [])
    else
      var t := TransmitStep(d, steps[i], bus, start);
      if t.outcome.Fail? then t
      else
        var rest := RunFrom(d, steps, i + 1, bus, start + |t.sent|);
        PassThenRest(bus, start, t, StepFrames(d, steps[i]), rest, FramesBetween(d, steps, i + 1, |steps|));
        Transfer(rest.outcome, t.to, t.sent + rest.sent)
  }

  /**
   A transfer that returned `Ok` followed by another keeps the two promises
   of a step as written: an error is real, and when no send failed the
   result is `Ok` and the frames are those of both.
   */
  lemma PassThenRest(bus: nat -> Outcome<I2cError>, start: nat, a: Transfer, fa: seq<bv8>, b: Transfer, fb: seq<bv8>)
    requires a.outcome.Pass?
    requires FirstFailure(bus, start, |a.sent|).Pass? ==> a.sent == fa
    requires b.outcome.Fail? ==> FirstFailure(bus, start + |a.sent|, |b.sent|).Fail?
    requires FirstFailure(bus, start + |a.sent|, |b.sent|).Pass? ==> b.outcome.Pass? && b.sent == fb
    ensures b.outcome.Fail? ==> FirstFailure(bus, start, |a.sent + b.sent|).Fail?
    ensures FirstFailure(bus, start, |a.sent + b.sent|).Pass? ==> b.outcome.Pass? && a.sent + b.sent == fa + fb
  {
    FirstFailureAppend(bus, start, |a.sent|, |b.sent|);
  }

  /** Runs `steps` in order, giving up after the first step that returns an error. */
  function RunSteps(d: Display, steps: seq<Step>, bus: nat -> Outcome<I2cError>, start: nat): (r: Transfer)
    ensures r.to == d.address
    ensures r.outcome.Fail? ==> FirstFailure(bus, start, |r.sent|).Fail?
    ensures FirstFailure(bus, start, |r.sent|).Pass? ==> r.outcome.Pass? && r.sent == AllFrames(d, steps)
  {
    RunFrom(d, steps, 0, bus, start)
  }

  /** Runs steps `i` onwards with the corrected steps, giving up after the first step that fails. */
  function RunFromCorrected(d: Display, steps: seq<Step>, i: nat, bus: nat -> Outcome<I2cError>, start: nat): (r: Transfer)
    ensures r.to == d.address
    requires i <= |steps|
    ensures r.outcome == FirstFailure(bus, start, |r.sent|)
    ensures r.outcome.Pass? ==> r.sent == FramesBetween(d, steps, i, |steps|)
    decreases |steps| - i
  {
    if i == |steps| then Transfer(Pass, d.address, [])
    else
      var t := TransmitStepCorrected(d, steps[i], bus, start);
      if t.outcome.Fail? then t
      else
        var rest := RunFromCorrected(d, steps, i + 1, bus, start + |t.sent|);
        FirstFailureAppend(bus, start, |t.sent|, |rest.sent|);
        Transfer(rest.outcome, t.to, t.sent + rest.sent)
  }

  /** Runs `steps` in order with the corrected steps, giving up after the first step that fails. */
  function RunStepsCorrected(d: Display, steps: seq<Step>, bus: nat -> Outcome<I2cError>, start: nat): (r: Transfer)
    ensures r.to == d.address
    ensures r.outcome == FirstFailure(bus, start, |r.sent|)
    ensures r.outcome.Pass? ==> r.sent == AllFrames(d, steps)
  {
    RunFromCorrected(d, steps, 0, bus, start)
  }

  /**
   `sent`, the output of a run from step `i`, stops inside step `m`: it
   starts with the frames of steps `i` to `m - 1`, whose sends all
   succeeded, and goes on with at least one and at most all of step `m`'s
   frames, and nothing of the steps after it.
   */
  predicate StoppedIn(d: Display, steps: seq<Step>, i: nat, m: nat, bus: nat -> Outcome<I2cError>, start: nat, sent: seq<bv8>)
  {
    && i <= m < |steps|
    && var done := FramesBetween(d, steps, i, m);
    && |done| < |sent| <= |done| + |StepFrames(d, steps[m])|
    && sent[..|done|] == done
    && FirstFailure(bus, start, |done|).Pass?
  }

  /** The step a run from step `i` stops in: the first whose transmission fails, or `|steps|`. */
  function StopStep(d: Display, steps: seq<Step>, i: nat, bus: nat -> Outcome<I2cError>, start: nat): nat
    requires i <= |steps|
    decreases |steps| - i
  {
    if i == |steps| then i
    else
      var t := TransmitStepCorrected(d, steps[i], bus, start);
      if t.outcome.Fail? then i else StopStep(d, steps, i + 1, bus, start + |t.sent|)
  }

  lemma {:induction false} RunFromCorrectedStopsAtFailure(d: Display, steps: seq<Step>, i: nat, bus: nat -> Outcome<I2cError>, start: nat)
    requires i <= |steps| && RunFromCorrected(d, steps, i, bus, start).outcome.Fail?
    ensures StoppedIn(d, steps, i, StopStep(d, steps, i, bus, start), bus, start, RunFromCorrected(d, steps, i, bus, start).sent)
    decreases |steps| - i
  {
    var t := TransmitStepCorrected(d, steps[i], bus, start);
    if t.outcome.Fail? {
      StoppedInFirst(d, steps, i, bus, start);
    } else {
      RunFromCorrectedCons(d, steps, i, bus, start);
      RunFromCorrectedStopsAtFailure(d, steps, i + 1, bus, start + |t.sent|);
      StoppedInStep(d, steps, i, bus, start);
    }
  }

  /** The base case of `RunFromCorrectedStopsAtFailure`: step `i` itself fails. */
  lemma StoppedInFirst(d: Display, steps: seq<Step>, i: nat, bus: nat -> Outcome<I2cError>, start: nat)
    requires i < |steps| && TransmitStepCorrected(d, steps[i], bus, start).outcome.Fail?
    ensures StoppedIn(d, steps, i, StopStep(d, steps, i, bus, start), bus, start, RunFromCorrected(d, steps, i, bus, start).sent)
  {
    var t := TransmitStepCorrected(d, steps[i], bus, start);
    assert StopStep(d, steps, i, bus, start) == i;
    assert RunFromCorrected(d, steps, i, bus, start) == t;
    assert FramesBetween(d, steps, i, i) == [];
  }

  /** The inductive step of `RunFromCorrectedStopsAtFailure`, when step `i` succeeds. */
  lemma StoppedInStep(d: Display, steps: seq<Step>, i: nat, bus: nat -> Outcome<I2cError>, start: nat)
    requires i < |steps| && TransmitStepCorrected(d, steps[i], bus, start).outcome.Pass?
    requires var next := start + |TransmitStepCorrected(d, steps[i], bus, start).sent|;
      StoppedIn(d, steps, i + 1, StopStep(d, steps, i + 1, bus, next), bus, next, RunFromCorrected(d, steps, i + 1, bus, next).sent)
    ensures StoppedIn(d, steps, i, StopStep(d, steps, i, bus, start), bus, start, RunFromCorrected(d, steps, i, bus, start).sent)
  {
    var t := TransmitStepCorrected(d, steps[i], bus, start);
    var next := start + |t.sent|;
    RunFromCorrectedCons(d, steps, i, bus, start);
    var m := StopStep(d, steps, i + 1, bus, next);
    var restSent := RunFromCorrected(d, steps, i + 1, bus, next).sent;
    StoppedInCons(d, steps, i, m, bus, start, t.sent, restSent);
    StopStepCons(d, steps, i, bus, start);
  }

  lemma StopStepCons(d: Display, steps: seq<Step>, i: nat, bus: nat -> Outcome<I2cError>, start: nat)
    requires i < |steps| && TransmitStepCorrected(d, steps[i], bus, start).outcome.Pass?
    ensures StopStep(d, steps, i, bus, start) == StopStep(d, steps, i + 1, bus, start + |TransmitStepCorrected(d, steps[i], bus, start).sent|)
  {
  }

  lemma RunFromCorrectedCons(d: Display, steps: seq<Step>, i: nat, bus: nat -> Outcome<I2cError>, start: nat)
    requires i < |steps|
    ensures var t := TransmitStepCorrected(d, steps[i], bus, start);
      t.outcome.Pass? ==>
        && t.sent == StepFrames(d, steps[i])
        && FirstFailure(bus, start, |t.sent|).Pass?
        && RunFromCorrected(d, steps, i, bus, start).sent == t.sent + RunFromCorrected(d, steps, i + 1, bus, start + |t.sent|).sent
        && RunFromCorrected(d, steps, i, bus, start).outcome == RunFromCorrected(d, steps, i + 1, bus, start + |t.sent|).outcome
  {
  }

  lemma StoppedInCons(d: Display, steps: seq<Step>, i: nat, m: nat, bus: nat -> Outcome<I2cError>, start: nat,
                      first: seq<bv8>, restSent: seq<bv8>)
    requires i < |steps| && first == StepFrames(d, steps[i]) && FirstFailure(bus, start, |first|).Pass?
    requires StoppedIn(d, steps, i + 1, m, bus, start + |first|, restSent)
    ensures StoppedIn(d, steps, i, m, bus, start, first + restSent)
  {
    var doneTail := FramesBetween(d, steps, i + 1, m);
    var done := FramesBetween(d, steps, i, m);
    assert done == first + doneTail;
    assert (first + restSent)[..|done|] == first + restSent[..|doneTail|];
    FirstFailureAppend(bus, start, |first|, |doneTail|);
  }

  /**
   A failed run stops inside the first step that fails: the steps before it
   completed, and no step after it was started.
   */
  lemma RunStepsCorrectedStopsAtFailure(d: Display, steps: seq<Step>, bus: nat -> Outcome<I2cError>, start: nat)
    requires RunStepsCorrected(d, steps, bus, start).outcome.Fail?
    ensures exists m :: StoppedIn(d, steps, 0, m, bus, start, RunStepsCorrected(d, steps, bus, start).sent)
  {
    RunFromCorrectedStopsAtFailure(d, steps, 0, bus, start);
    var m := StopStep(d, steps, 0, bus, start);
    assert StoppedIn(d, steps, 0, m, bus, start, RunStepsCorrected(d, steps, bus, start).sent);
  }

  /**
   Where the corrected run succeeds, the run as written does exactly the
   same; so a run as written that reports an error is one whose corrected
   run fails too.
   */
  lemma {:induction false} RunFromAgrees(d: Display, steps: seq<Step>, i: nat, bus: nat -> Outcome<I2cError>, start: nat)
    requires i <= |steps| && RunFromCorrected(d, steps, i, bus, start).outcome.Pass?
    ensures RunFrom(d, steps, i, bus, start) == RunFromCorrected(d, steps, i, bus, start)
    decreases |steps| - i
  {
    if i < |steps| {
      var t := TransmitStepCorrected(d, steps[i], bus, start);
      StepAgrees(d, steps[i], bus, start);
      RunFromAgrees(d, steps, i + 1, bus, start + |t.sent|);
    }
  }

  /** The fixed start-up sequence: three times 8-bit mode, 4-bit mode, then five commands. */
  const SetupSteps: seq<Step> := [
    Nibble(0x3, false), Nibble(0x3, false), Nibble(0x3, false),
    Nibble(0x2, false),
    Byte(0x28, false),   // 4-bit interface, two lines, 5x8 font
    Byte(0x08, false),   // display off
    Byte(0x01, false),   // clear, cursor home
    Byte(0x06, false),   // increment, no shift
    Byte(0x0C, false)    // display on
  ]

  /** Initialises the display, returning at the first step that reports an error. */
  function BasicSetup(d: Display, bus: nat -> Outcome<I2cError>, start: nat): (r: Transfer)
    ensures r.to == d.address
    ensures r.outcome.Fail? ==> FirstFailure(bus, start, |r.sent|).Fail?
    ensures FirstFailure(bus, start, |r.sent|).Pass? ==> r.outcome.Pass? && r.sent == AllFrames(d, SetupSteps)
  {
    RunSteps(d, SetupSteps, bus, start)
  }

  /** `BasicSetup` over the corrected steps: it reports its first failed send. */
  function BasicSetupCorrected(d: Display, bus: nat -> Outcome<I2cError>, start: nat): (r: Transfer)
    ensures r.to == d.address
    ensures r.outcome == FirstFailure(bus, start, |r.sent|)
    ensures r.outcome.Pass? ==> r.sent == AllFrames(d, SetupSteps)
  {
    RunStepsCorrected(d, SetupSteps, bus, start)
  }

  /** Moves the cursor: the "set DDRAM address" command `0x80 | location`. */
  function SetLocation(d: Display, location: bv8, bus: nat -> Outcome<I2cError>, start: nat): (r: Transfer)
    ensures r.to == d.address
    ensures r.outcome.Fail? ==> FirstFailure(bus, start, |r.sent|).Fail?
    ensures FirstFailure(bus, start, |r.sent|).Pass? ==> r.outcome.Pass? && r.sent == ByteFrames(d, 0x80 | location, false)
  {
    TransmitByteAsWritten(d, 0x80 | location, false, bus, start)
  }

  /** `SetLocation` over the corrected byte: it reports its first failed send. */
  function SetLocationCorrected(d: Display, location: bv8, bus: nat -> Outcome<I2cError>, start: nat): (r: Transfer)
    ensures r.to == d.address
    ensures r.outcome == FirstFailure(bus, start, |r.sent|)
    ensures r.outcome.Pass? ==> r.sent == ByteFrames(d, 0x80 | location, false)
  {
    TransmitByte(d, 0x80 | location, false, bus, start)
  }

  /** The steps that write `text`: each byte as data (RS high). */
  function TextSteps(text: seq<bv8>): (r: seq<Step>)
    ensures |r| == |text|
    ensures forall i :: 0 <= i < |text| ==> r[i] == Byte(text[i], true)
  {
    seq(|text|, i requires 0 <= i < |text| => Byte(text[i], true))
  }

  /** Writes `text` at the cursor, byte by byte, stopping at the first byte that reports an error. */
  function WriteText(d: Display, text: seq<bv8>, bus: nat -> Outcome<I2cError>, start: nat): (r: Transfer)
    ensures r.to == d.address
    ensures r.outcome.Fail? ==> FirstFailure(bus, start, |r.sent|).Fail?
    ensures FirstFailure(bus, start, |r.sent|).Pass? ==> r.outcome.Pass? && r.sent == AllFrames(d, TextSteps(text))
  {
    RunSteps(d, TextSteps(text), bus, start)
  }

  /** `WriteText` over the corrected bytes: it stops at, and reports, its first failed send. */
  function WriteTextCorrected(d: Display, text: seq<bv8>, bus: nat -> Outcome<I2cError>, start: nat): (r: Transfer)
    ensures r.to == d.address
    ensures r.outcome == FirstFailure(bus, start, |r.sent|)
    ensures r.outcome.Pass? ==> r.sent == AllFrames(d, TextSteps(text))
  {
    RunStepsCorrected(d, TextSteps(text), bus, start)
  }

  /**
   As written, a command reports success over a failed send and goes on:
   moving the cursor with only the lower nibble's first send failing
   returns `Ok`, and writing two bytes with only the very first send
   failing sends all ten remaining frames and returns `Ok`. The corrected
   versions report the bus error, and the text stops after four frames.
   */
  lemma CommandsAsWrittenLoseErrors(d: Display, location: bv8, a: bv8, b: bv8)
    ensures SetLocation(d, location, FailsOnlyAt(3), 0).outcome == Pass
    ensures SetLocationCorrected(d, location, FailsOnlyAt(3), 0).outcome == Fail(BusError)
    ensures WriteText(d, [a, b], FailsOnlyAt(0), 0).outcome == Pass
    ensures |WriteText(d, [a, b], FailsOnlyAt(0), 0).sent| == 10
    ensures WriteTextCorrected(d, [a, b], FailsOnlyAt(0), 0).outcome == Fail(BusError)
    ensures |WriteTextCorrected(d, [a, b], FailsOnlyAt(0), 0).sent| == 4
  {
    TransmitByteAsWrittenLosesErrors(d, 0x80 | location, false);
    TwoBytesAsWritten(d, a, b);
    TwoBytesCorrected(d, a, b);
  }

  lemma TwoBytesAsWritten(d: Display, a: bv8, b: bv8)
    ensures WriteText(d, [a, b], FailsOnlyAt(0), 0).outcome == Pass
    ensures |WriteText(d, [a, b], FailsOnlyAt(0), 0).sent| == 10
  {
    var bus, steps := FailsOnlyAt(0), TextSteps([a, b]);
    TransmitByteAsWrittenLosesErrors(d, a, true);
    var first := TransmitStep(d, steps[0], bus, 0);
    assert first == TransmitByteAsWritten(d, a, true, bus, 0);
    LaterSendsPass(0, 4, |RunFromCorrected(d, steps, 1, bus, 4).sent|);
    RunFromAgrees(d, steps, 1, bus, 4);
    assert |RunFromCorrected(d, steps, 1, bus, 4).sent| == 6 by {
      assert FramesBetween(d, steps, 2, 2) == [];
    }
  }

  /** On a bus that fails only at send `k`, the sends after it all succeed. */
  lemma LaterSendsPass(k: nat, start: nat, n: nat)
    requires k < start
    ensures FirstFailure(FailsOnlyAt(k), start, n).Pass?
  {
    FirstFailurePassIff(FailsOnlyAt(k), start, n);
  }

  lemma TwoBytesCorrected(d: Display, a: bv8, b: bv8)
    ensures WriteTextCorrected(d, [a, b], FailsOnlyAt(0), 0).outcome == Fail(BusError)
    ensures |WriteTextCorrected(d, [a, b], FailsOnlyAt(0), 0).sent| == 4
  {
    var bus, steps := FailsOnlyAt(0), TextSteps([a, b]);
    TransmitByteAsWrittenLosesErrors(d, a, true);
    AsWrittenDiffersOnlyInResult(d, a, true, bus, 0);
    assert TransmitStepCorrected(d, steps[0], bus, 0) == TransmitByte(d, a, true, bus, 0);
  }

  /** Sets the backlight pin, with E low so the controller ignores the update. */
  function UpdateBacklight(d: Display, bus: nat -> Outcome<I2cError>, start: nat): (r: Transfer)
    ensures r.to == d.address
    ensures r.sent == [if d.wantsBacklight then BacklightBit else 0]
    ensures r.outcome == bus(start)
  {
    SendFrames(d.address, [if d.wantsBacklight then BacklightBit else 0], bus, start)
  }

  // ---------------------------------------------------------------------
  // What the display controller receives

  /** A nibble the HD44780 latches, with its register select. */
  datatype Latch = Latch(nibble: bv8, rs: bool)

  /**
   The nibbles the display latches from a run of expander states: one at
   every falling edge of E, taken from the data and RS pins while E was
   high. E is low before the first frame.
   */
  function Latched(frames: seq<bv8>): seq<Latch>
    decreases |frames|
  {
    if |frames| < 2 then []
    else
      (if frames[0] & EBit != 0 && frames[1] & EBit == 0 then [Latch(frames[0] >> 4, frames[0] & RsBit != 0)] else [])
      + Latched(frames[1..])
  }

  /** The latches of two runs add up when the first run ends with E low. */
  lemma {:induction false} LatchedAppend(a: seq<bv8>, b: seq<bv8>)
    requires |a| > 0 && a[|a| - 1] & EBit == 0
    ensures Latched(a + b) == Latched(a) + Latched(b)
    decreases |a|
  {
    if |a| == 1 {
      if |b| >= 1 {
        assert (a + b)[1..] == b;
      }
    } else {
      assert (a + b)[1..] == a[1..] + b;
      LatchedAppend(a[1..], b);
    }
  }

  /** One nibble's three frames latch exactly that nibble, once. */
  lemma NibbleLatches(d: Display, nibble: bv8, rs: bool)
    ensures Latched(NibbleFrames(d, nibble, rs)) == [Latch(nibble & 0xF, rs)]
  {
    var f := NibbleFrames(d, nibble, rs);
    NibbleFramesShape(d, nibble, rs);
    assert Latched(f[1..][1..]) == [];
    assert f[1] & RsBit != 0 <==> rs;
    assert Latched(f[1..]) == [Latch(f[1] >> 4, rs)];
    assert Latched(f) == [] + Latched(f[1..]);
  }

  /** A byte latches its upper nibble and then its lower nibble. */
  lemma ByteLatches(d: Display, byte: bv8, rs: bool)
    ensures Latched(ByteFrames(d, byte, rs)) == [Latch(byte >> 4, rs), Latch(byte & 0xF, rs)]
  {
    NibbleLatches(d, byte >> 4, rs);
    NibbleLatches(d, byte & 0xF, rs);
    LatchedAppend(NibbleFrames(d, byte >> 4, rs), NibbleFrames(d, byte & 0xF, rs));
    assert (byte >> 4) & 0xF == byte >> 4;
    assert (byte & 0xF) & 0xF == byte & 0xF;
  }

  /** The bytes a 4-bit-mode controller assembles from pairs of latched nibbles, upper nibble first. */
  function Assemble(latches: seq<Latch>): seq<(bv8, bool)>
    decreases |latches|
  {
    if |latches| < 2 then []
    else [((latches[0].nibble << 4) | (latches[1].nibble & 0xF), latches[1].rs)] + Assemble(latches[2..])
  }

  function StepLatches(step: Step): seq<Latch>
  {
    match step
    case Nibble(n, rs) => [Latch(n & 0xF, rs)]
    case Byte(b, rs) => [Latch(b >> 4, rs), Latch(b & 0xF, rs)]
  }

  /** What the display should latch for steps `i` onwards: one nibble per lone nibble, two per byte. */
  function LatchesFrom(steps: seq<Step>, i: nat): seq<Latch>
    requires i <= |steps|
    decreases |steps| - i
  {
    if i == |steps| then [] else StepLatches(steps[i]) + LatchesFrom(steps, i + 1)
  }

  /** The frames of a fully successful run of steps latch exactly the steps' nibbles. */
  lemma {:induction false} StepsLatch(d: Display, steps: seq<Step>, i: nat)
    requires i <= |steps|
    ensures Latched(FramesBetween(d, steps, i, |steps|)) == LatchesFrom(steps, i)
    decreases |steps| - i
  {
    if i < |steps| {
      var f := StepFrames(d, steps[i]);
      StepLatch(d, steps[i]);
      StepsLatch(d, steps, i + 1);
      LatchedAppend(f, FramesBetween(d, steps, i + 1, |steps|));
    }
  }

  /** One step's frames latch the step's nibbles and leave E low. */
  lemma StepLatch(d: Display, step: Step)
    ensures var f := StepFrames(d, step); |f| > 0 && f[|f| - 1] & EBit == 0
    ensures Latched(StepFrames(d, step)) == StepLatches(step)
  {
    match step {
      case Nibble(n, rs) =>
        NibbleLatches(d, n, rs);
        NibbleFramesShape(d, n, rs);
      case Byte(b, rs) =>
        ByteLatches(d, b, rs);
        NibbleFramesShape(d, b & 0xF, rs);
        assert StepFrames(d, step)[5] == NibbleFrames(d, b & 0xF, rs)[2];
    }
  }

  lemma {:induction false} AssembleText(text: seq<bv8>, i: nat)
    requires i <= |text|
    ensures Assemble(LatchesFrom(TextSteps(text), i)) == seq(|text| - i, j requires 0 <= j < |text| - i => (text[i + j], true))
    decreases |text| - i
  {
    if i < |text| {
      var b := text[i];
      AssembleText(text, i + 1);
      assert ((b >> 4) << 4) | ((b & 0xF) & 0xF) == b;
      assert LatchesFrom(TextSteps(text), i)[2..] == LatchesFrom(TextSteps(text), i + 1);
    }
  }

  /**
   A `WriteText` all of whose sends succeeded delivers the text to the
   display controller: the latched nibbles, paired up, are the text's
   bytes, each as data. (As written, an `Ok` result alone does not ensure
   this.)
   */
  lemma WriteTextDelivers(d: Display, text: seq<bv8>, bus: nat -> Outcome<I2cError>, start: nat)
    requires FirstFailure(bus, start, |WriteText(d, text, bus, start).sent|).Pass?
    ensures Assemble(Latched(WriteText(d, text, bus, start).sent)) ==
      seq(|text|, i requires 0 <= i < |text| => (text[i], true))
  {
    StepsLatch(d, TextSteps(text), 0);
    AssembleText(text, 0);
  }

  /** With the corrected bytes, an `Ok` result alone means the text was delivered. */
  lemma WriteTextCorrectedDelivers(d: Display, text: seq<bv8>, bus: nat -> Outcome<I2cError>, start: nat)
    requires WriteTextCorrected(d, text, bus, start).outcome.Pass?
    ensures Assemble(Latched(WriteTextCorrected(d, text, bus, start).sent)) ==
      seq(|text|, i requires 0 <= i < |text| => (text[i], true))
  {
    StepsLatch(d, TextSteps(text), 0);
    AssembleText(text, 0);
  }

  /**
   A `BasicSetup` all of whose sends succeeded latches the command nibbles
   3, 3, 3, 2 and then the nibbles of 0x28, 0x08, 0x01, 0x06 and 0x0C, all
   as commands (RS low).
   */
  lemma BasicSetupLatches(d: Display, bus: nat -> Outcome<I2cError>, start: nat)
    requires FirstFailure(bus, start, |BasicSetup(d, bus, start).sent|).Pass?
    ensures Latched(BasicSetup(d, bus, start).sent) ==
      [Latch(3, false), Latch(3, false), Latch(3, false), Latch(2, false),
       Latch(2, false), Latch(8, false), Latch(0, false), Latch(8, false),
       Latch(0, false), Latch(1, false), Latch(0, false), Latch(6, false),
       Latch(0, false), Latch(0xC, false)]
  {
    StepsLatch(d, SetupSteps, 0);
    SetupLatchList();
  }

  /** With the corrected steps, an `Ok` result alone means the whole set-up was latched. */
  lemma BasicSetupCorrectedLatches(d: Display, bus: nat -> Outcome<I2cError>, start: nat)
    requires BasicSetupCorrected(d, bus, start).outcome.Pass?
    ensures Latched(BasicSetupCorrected(d, bus, start).sent) ==
      [Latch(3, false), Latch(3, false), Latch(3, false), Latch(2, false),
       Latch(2, false), Latch(8, false), Latch(0, false), Latch(8, false),
       Latch(0, false), Latch(1, false), Latch(0, false), Latch(6, false),
       Latch(0, false), Latch(0xC, false)]
  {
    StepsLatch(d, SetupSteps, 0);
    SetupLatchList();
  }

  lemma SetupLatchList()
    ensures LatchesFrom(SetupSteps, 0) ==
      [Latch(3, false), Latch(3, false), Latch(3, false), Latch(2, false),
       Latch(2, false), Latch(8, false), Latch(0, false), Latch(8, false),
       Latch(0, false), Latch(1, false), Latch(0, false), Latch(6, false),
       Latch(0, false), Latch(0xC, false)]
  {
    var s := SetupSteps;
    assert LatchesFrom(s, 8) == [Latch(0, false), Latch(0xC, false)];
    assert LatchesFrom(s, 7) == [Latch(0, false), Latch(6, false)] + LatchesFrom(s, 8);
    assert LatchesFrom(s, 6) == [Latch(0, false), Latch(1, false)] + LatchesFrom(s, 7);
    assert LatchesFrom(s, 5) == [Latch(0, false), Latch(8, false)] + LatchesFrom(s, 6);
    assert LatchesFrom(s, 4) == [Latch(2, false), Latch(8, false)] + LatchesFrom(s, 5);
    assert LatchesFrom(s, 3) == [Latch(2, false)] + LatchesFrom(s, 4);
    assert LatchesFrom(s, 2) == [Latch(3, false)] + LatchesFrom(s, 3);
    assert LatchesFrom(s, 1) == [Latch(3, false)] + LatchesFrom(s, 2);
  }
}

=== FILE: init.dfy ===
/** Clock constants fixed by the microcontroller's initialisation. */
module Init {
  import opened Bits

  /** The core clock, driven by the external crystal oscillator. */
  const CoreClockSpeedHz: u32 := 31_000_000
}

=== FILE: scheduler.dfy ===
/**
 The RTC interrupt of the firmware as a pure step function.

 The interrupt fires 32 times a second. Its two function-local statics
 (the sub-tick counter and the frame being shifted out) and the three
 shared cells (the second, the time record and the display update flag)
 become the fields of one explicit state record; one call of the handler
 maps a state to the next state and to the duty cycle it programs into the
 PWM, if any.
 */
module Scheduler {
  import opened Bits
  import opened Wrappers
  import opened Init
  import opened Dcf77

  /** Everything the interrupt handler reads or writes. */
  datatype State = State(
    counter: u8,        // the handler's sub-tick counter
    second: u8,         // the second of the minute last started
    minute: Word64,     // the frame still to be shifted out, next bit lowest
    data: Dcf77Data,    // the time record the next frame is built from
    updateTime: bool)   // asks the foreground to redraw the display

  /** The interrupt's rate: calls per second. */
  const TicksPerSecond: nat := 32

  /** The PWM period, in core clock cycles, of the 77.5 kHz carrier. */
  const Period: u32 := CoreClockSpeedHz / FrequencyHz

  /** Duty cycle for a 1 bit: half the period. */
  const LongDuty: u32 := Period / 2

  /** Duty cycle for a 0 bit: a 44th of the period. */
  const ShortDuty: u32 := Period / 44

  /** The carrier period is 400 cycles; a 1 bit gets 200 of them and a 0 bit 9. */
  lemma PwmCycles()
    ensures Period == 400 && LongDuty == 200 && ShortDuty == 9
  {
  }

  /** The duty cycle that transmits bit `b`. */
  function DutyFor(b: bool): u32
  {
    if b then LongDuty else ShortDuty
  }

  /** The values the statics start with. */
  function Initial(): (s: State)
    ensures s.counter == 31 && s.second == 59 && !s.updateTime
    ensures s.data == New() && Value(s.minute) == 0
  {
    ZerosValue(64);
    State(31, 59, Zeros(64), New(), false)
  }

  /** What one call of the handler does: the state afterwards and the duty cycle it programs. */
  datatype Tick = Tick(next: State, duty: Option<u32>)

  /** The second that the next boundary starts: one more, wrapping 60 to 0. */
  function NextSecond(s: State): nat
  {
    if s.second == 59 then 0 else s.second + 1
  }

  /**
   The work done once a second, with the sub-tick counter left alone: the
   second advances, and starting second 59 switches the modulation off and
   encodes the next minute into a fresh frame, while starting any other
   second sends the lowest frame bit and shifts it out.
   */
  function SecondBoundary(s: State): (t: Tick)
    ensures t.duty.Some? && t.next.updateTime && t.next.counter == s.counter
    ensures s.second < 60 ==> t.next.second == NextSecond(s)
  {
    var incremented := WrappingInc(s.second);
    var second := if incremented == 60 then 0 else incremented;
    if second == 59 then
      var data := IncrementMinute(s.data);
      Tick(State(s.counter, second, ToBits(data), data, true), Some(0))
    else
      Tick(State(s.counter, second, ShiftRight(s.minute), s.data, true), Some(DutyFor(s.minute[0])))
  }

  /**
   Starting second 59 sends no modulation and replaces the frame by the
   encoding of the time one minute on; starting any other second sends the
   frame's lowest bit, halves the frame and keeps the time.
   */
  lemma BoundaryEffect(s: State)
    requires s.second < 60
    ensures NextSecond(s) == 59 ==>
      && SecondBoundary(s).duty == Some(0)
      && SecondBoundary(s).next.data == IncrementMinute(s.data)
      && SecondBoundary(s).next.minute == ToBits(IncrementMinute(s.data))
    ensures NextSecond(s) != 59 ==>
      && SecondBoundary(s).duty == Some(DutyFor(s.minute[0]))
      && SecondBoundary(s).next.data == s.data
      && SecondBoundary(s).next.minute == ShiftRight(s.minute)
      && Value(SecondBoundary(s).next.minute) == Value(s.minute) / 2
  {
    ShiftRightHalves(s.minute);
  }

  /**
   One call of the interrupt handler: the counter advances modulo 32, and
   only when it comes round to 0 is a second boundary processed. Between
   boundaries nothing but the counter changes.
   */
  function RtcTick(s: State): (t: Tick)
    ensures s.counter < 32 ==> t.next.counter == (s.counter + 1) % 32
    ensures t.duty.Some? <==> t.next.counter == 0
    ensures t.duty.None? ==> t.next == s.(counter := t.next.counter)
    ensures t.duty.Some? ==> t == SecondBoundary(s).(next := SecondBoundary(s).next.(counter := 0))
  {
    var counter := WrappingInc(s.counter) % 32;
    if counter != 0 then
      Tick(s.(counter := counter), None)
    else
      var t := SecondBoundary(s);
      Tick(t.next.(counter := counter), t.duty)
  }

  /**
   The states the handler can be in: a counter below 32, a second below 60
   and a time record of decimal digits.
   */
  predicate Inv(s: State)
  {
    s.counter < 32 && s.second < 60 && Valid(s.data)
  }

  lemma InitialInv()
    ensures Inv(Initial())
  {
  }

  /**
   Every call of the handler keeps the counter below 32, the second in
   0..59 and the time record valid.
   */
  lemma TickPreservesInv(s: State)
    requires Inv(s)
    ensures Inv(RtcTick(s).next)
  {
    IncrementMinuteStaysValid(s.data);
  }

  // ---------------------------------------------------------------------
  // Runs of calls

  /** The state after `n` steps and the duty cycle programmed by each step, if any. */
  datatype Trace = Trace(last: State, duties: seq<Option<u32>>)

  /** `n` applications of `step`, starting from `s`. */
  function Iterate(step: State -> Tick, s: State, n: nat): (r: Trace)
    ensures |r.duties| == n
    decreases n
  {
    if n == 0 then Trace(s, [])
    else
      var t := step(s);
      var rest := Iterate(step, t.next, n - 1);
      Trace(rest.last, [t.duty] + rest.duties)
  }

  /** `m + n` steps are `m` steps followed by `n` steps. */
  lemma {:induction false} IterateAppend(step: State -> Tick, s: State, m: nat, n: nat)
    ensures Iterate(step, s, m + n).last == Iterate(step, Iterate(step, s, m).last, n).last
    ensures Iterate(step, s, m + n).duties == Iterate(step, s, m).duties + Iterate(step, Iterate(step, s, m).last, n).duties
    decreases m
  {
    if m > 0 {
      var t := step(s);
      IterateAppend(step, t.next, m - 1, n);
      assert [t.duty] + (Iterate(step, t.next, m - 1).duties + Iterate(step, Iterate(step, s, m).last, n).duties)
          == ([t.duty] + Iterate(step, t.next, m - 1).duties) + Iterate(step, Iterate(step, s, m).last, n).duties;
    }
  }

  /** `n` calls of the interrupt handler. */
  function Run(s: State, n: nat): (r: Trace)
    ensures |r.duties| == n
  {
    Iterate(RtcTick, s, n)
  }

  /** Calls that do not reach counter 0 only count. */
  lemma {:induction false} QuietRun(s: State, n: nat)
    requires s.counter + n < 32
    ensures Run(s, n).last == s.(counter := s.counter + n)
    ensures forall i :: 0 <= i < n ==> Run(s, n).duties[i].None?
    decreases n
  {
    if n > 0 {
      var t := RtcTick(s);
      assert t.next == s.(counter := s.counter + 1);
      QuietRun(t.next, n - 1);
    }
  }

  /**
   Any 32 consecutive calls contain exactly one second boundary, at call
   `31 - counter`; they leave the counter where it was and do the work of
   one boundary.
   */
  lemma OneBoundaryPer32Calls(s: State)
    requires s.counter < TicksPerSecond
    ensures Run(s, TicksPerSecond).last == SecondBoundary(s).next
    ensures forall i :: 0 <= i < TicksPerSecond ==>
      Run(s, TicksPerSecond).duties[i] == if i == TicksPerSecond - 1 - s.counter then SecondBoundary(s).duty else None
  {
    var c := s.counter;
    UpToBoundary(s, 32 - c);
    AfterBoundary(SecondBoundary(s).next);
    IterateAppend(RtcTick, s, 32 - c, c);
  }

  /** The quiet calls before a boundary and the boundary call itself. */
  lemma UpToBoundary(s: State, n: nat)
    requires s.counter < 32 && n == 32 - s.counter
    ensures Run(s, n).last == SecondBoundary(s).next.(counter := 0)
    ensures forall i :: 0 <= i < n ==>
      Run(s, n).duties[i] == if i == 31 - s.counter then SecondBoundary(s).duty else None
  {
    var before := 31 - s.counter;
    QuietRun(s, before);
    var u := Run(s, before).last;
    assert u == s.(counter := 31);
    BoundaryIgnoresCounter(s, 31);
    var t := RtcTick(u);
    assert t.next.counter == 0 && t.duty.Some?;
    assert t.next == SecondBoundary(s).next.(counter := 0) && t.duty == SecondBoundary(s).duty;
    assert Run(u, 1) == Trace(t.next, [t.duty]);
    IterateAppend(RtcTick, s, before, 1);
    assert Run(s, before + 1).duties == Run(s, before).duties + [t.duty];
  }

  /** What a boundary does does not depend on the sub-tick counter, which it keeps. */
  lemma BoundaryIgnoresCounter(s: State, c: u8)
    ensures SecondBoundary(s.(counter := c)) == SecondBoundary(s).(next := SecondBoundary(s).next.(counter := c))
  {
  }

  /** The quiet calls after a boundary bring the counter back to where it started. */
  lemma AfterBoundary(b: State)
    requires b.counter < 32
    ensures Run(b.(counter := 0), b.counter).last == b
    ensures forall i :: 0 <= i < b.counter ==> Run(b.(counter := 0), b.counter).duties[i].None?
  {
    QuietRun(b.(counter := 0), b.counter);
  }

  /** A call that finds the counter at 31 is a second boundary; the statics start there. */
  lemma CounterAt31IsBoundary(s: State)
    requires s.counter == 31
    ensures RtcTick(s).duty.Some? && RtcTick(s).next.counter == 0
  {
  }

  // ---------------------------------------------------------------------
  // Seconds

  /** `n` second boundaries in a row, with the duty cycle programmed at each. */
  function RunSeconds(s: State, n: nat): (r: Trace)
    ensures |r.duties| == n
  {
    Iterate(SecondBoundary, s, n)
  }

  /** The calls `32 * k` to `32 * k + 31` of a run: the `k`-th second of it. */
  function SecondOf(duties: seq<Option<u32>>, k: nat): seq<Option<u32>>
  {
    if TicksPerSecond * (k + 1) <= |duties| then duties[TicksPerSecond * k..TicksPerSecond * (k + 1)] else []
  }

  /** A second's worth of calls: `duty` at call `31 - counter`, nothing at the others. */
  function OneSecond(counter: u8, duty: Option<u32>): (r: seq<Option<u32>>)
    requires counter < TicksPerSecond
    ensures |r| == TicksPerSecond
    ensures r[TicksPerSecond - 1 - counter] == duty
    ensures forall i :: 0 <= i < TicksPerSecond && i != TicksPerSecond - 1 - counter ==> r[i].None?
  {
    seq(TicksPerSecond, i => if i == TicksPerSecond - 1 - counter then duty else None)
  }

  /**
   Counting seconds is counting calls in blocks of 32: `32 * n` calls of the
   handler end where `n` second boundaries end, and the `k`-th block of 32
   calls programs exactly what boundary `k` does, at call `31 - counter` of
   the block, and nothing else.
   */
  lemma {:induction false} CallsMakeSeconds(s: State, n: nat)
    requires s.counter < TicksPerSecond
    ensures Run(s, TicksPerSecond * n).last == RunSeconds(s, n).last
    ensures forall k :: 0 <= k < n ==>
      SecondOf(Run(s, TicksPerSecond * n).duties, k) == OneSecond(s.counter, RunSeconds(s, n).duties[k])
    decreases n
  {
    if n > 0 {
      var b := SecondBoundary(s).next;
      OneBoundaryPer32Calls(s);
      CallsMakeSeconds(b, n - 1);
      IterateAppend(RtcTick, s, TicksPerSecond, TicksPerSecond * (n - 1));
      assert TicksPerSecond + TicksPerSecond * (n - 1) == TicksPerSecond * n;
      FirstSecondThenRest(s, n, n - 1, b);
    }
  }

  /** How a run of `n` seconds splits into its first second and the `n - 1` after it. */
  lemma FirstSecondThenRest(s: State, n: nat, m: nat, b: State)
    requires s.counter < TicksPerSecond && n == m + 1 && b == SecondBoundary(s).next
    requires Run(s, TicksPerSecond * n).duties == Run(s, TicksPerSecond).duties + Run(b, TicksPerSecond * m).duties
    requires forall i :: 0 <= i < TicksPerSecond ==>
      Run(s, TicksPerSecond).duties[i] == if i == TicksPerSecond - 1 - s.counter then SecondBoundary(s).duty else None
    requires forall k :: 0 <= k < m ==>
      SecondOf(Run(b, TicksPerSecond * m).duties, k) == OneSecond(b.counter, RunSeconds(b, m).duties[k])
    ensures forall k :: 0 <= k < n ==>
      SecondOf(Run(s, TicksPerSecond * n).duties, k) == OneSecond(s.counter, RunSeconds(s, n).duties[k])
  {
    var first, rest := Run(s, TicksPerSecond).duties, Run(b, TicksPerSecond * m).duties;
    SecondOfAppend(first, rest);
    assert first == OneSecond(s.counter, SecondBoundary(s).duty);
    assert RunSeconds(s, n).duties == [SecondBoundary(s).duty] + RunSeconds(b, m).duties;
  }

  /** Block 0 of a run that starts with a whole block is that block; block `k` after it is block `k - 1` of the rest. */
  lemma SecondOfAppend(first: seq<Option<u32>>, rest: seq<Option<u32>>)
    requires |first| == TicksPerSecond
    ensures SecondOf(first + rest, 0) == first
    ensures forall k :: 0 < k ==> SecondOf(first + rest, k) == SecondOf(rest, k - 1)
  {
    forall k | 0 < k
      ensures SecondOf(first + rest, k) == SecondOf(rest, k - 1)
    {
      if TicksPerSecond * (k + 1) <= |first + rest| {
        assert (first + rest)[TicksPerSecond * k..TicksPerSecond * (k + 1)] == rest[TicksPerSecond * (k - 1)..TicksPerSecond * k];
      }
    }
  }

  /**
   As long as second 59 is not reached, boundary `k` sends bit `k` of the
   frame held at the start, and the time record is untouched.
   */
  lemma {:induction false} SecondsSendFrameBits(s: State, n: nat)
    requires s.second < 60
    requires NextSecond(s) + n <= 59
    ensures forall k :: 0 <= k < n ==> RunSeconds(s, n).duties[k] == Some(DutyFor(s.minute[k]))
    ensures forall i :: 0 <= i < 64 - n ==> RunSeconds(s, n).last.minute[i] == s.minute[i + n]
    ensures RunSeconds(s, n).last.data == s.data
    ensures n > 0 ==> RunSeconds(s, n).last.second == NextSecond(s) + n - 1
    decreases n
  {
    if n > 0 {
      BoundaryEffect(s);
      SecondsSendFrameBits(SecondBoundary(s).next, n - 1);
    }
  }

  /**
   From the start of second 59, the next 59 boundaries (seconds 0 to 58)
   send bits 0 to 58 of the frame in order, and the 60th starts second 59
   again: it sends no modulation and encodes the incremented time.
   */
  lemma {:induction false} FrameThenReencode(s: State)
    requires s.second == 59
    ensures forall k :: 0 <= k < 59 ==> RunSeconds(s, 60).duties[k] == Some(DutyFor(s.minute[k]))
    ensures RunSeconds(s, 60).duties[59] == Some(0)
    ensures RunSeconds(s, 60).last.second == 59
    ensures RunSeconds(s, 60).last.data == IncrementMinute(s.data)
    ensures RunSeconds(s, 60).last.minute == ToBits(IncrementMinute(s.data))
  {
    SecondsSendFrameBits(s, 59);
    var v := RunSeconds(s, 59).last;
    BoundaryEffect(v);
    var w := SecondBoundary(v);
    assert RunSeconds(v, 1) == Trace(w.next, [w.duty]);
    IterateAppend(SecondBoundary, s, 59, 1);
  }

  /**
   One minute of broadcast: the boundary that starts second 59 encodes the
   incremented time and switches the modulation off, and the 59 seconds
   after it send that frame bit by bit.
   */
  lemma MinuteOfBroadcast(s: State)
    requires s.second == 58
    ensures RunSeconds(s, 1).duties == [Some(0)]
    ensures RunSeconds(s, 1).last.data == IncrementMinute(s.data)
    ensures forall k :: 0 <= k < 59 ==>
      RunSeconds(RunSeconds(s, 1).last, 59).duties[k] == Some(DutyFor(ToBits(IncrementMinute(s.data))[k]))
  {
    BoundaryEffect(s);
    var u := SecondBoundary(s).next;
    assert RunSeconds(s, 1) == Trace(u, [Some(0)]);
    SecondsSendFrameBits(u, 59);
  }

  /**
   Before the first re-encode the frame is all zeros: the first 59 seconds
   after start-up transmit 0 bits, and the 60th boundary encodes 10:41.
   */
  lemma StartUpSendsZeros()
    ensures forall k :: 0 <= k < 59 ==> RunSeconds(Initial(), 60).duties[k] == Some(ShortDuty)
    ensures RunSeconds(Initial(), 60).duties[59] == Some(0)
    ensures RunSeconds(Initial(), 60).last.data == IncrementMinute(New())
  {
    FrameThenReencode(Initial());
  }
}

=== FILE: wrappers.dfy ===
/** Optional values and pass/fail outcomes, the model's stand-ins for Rust's `Option` and `Result<(), E>`. */
module Wrappers {

  datatype Option<+T> = None | Some(value: T)

  /** `Result<(), E>`: either `Ok(())` or an error. */
  datatype Outcome<+E> = Pass | Fail(error: E)
}
